=== FILE: README.md ===
# Warehouse inventory: item payload construction

A Dafny model of how a small warehouse-inventory application (a Python
desktop window over a hosted Postgres store) turns user and CSV input into
the rows it writes. Three tables are involved: products, pallets (one
product per pallet, on a shelf) and items (serialised units on a pallet).

The model covers these parts of the application:

- `importFromCsv`. Each CSV row is validated on its own. The distinct pallet
  ids of the kept rows go to one batched pallet-to-product lookup. The rows
  whose pallet resolved are stamped with that product and inserted in one
  call.
- `bulkScanItems` and `bulkRemoveItems`. These are the guarded bulk
  write and delete; each reports the store's row count.
- `addPallet` and `addProduct`. These normalise one record and insert it.
- `_to_item_tuple` and the item views built on it, plus the two
  selection-list helpers `fetch_model_numbers` and `fetch_pallet_ids`.
- Three window handlers: the bulk-add button (`gui_bulk_add_serials`) and
  the product and pallet forms (`gui_add_product`, `gui_add_pallet`). For
  these the model covers their input trimming, their required-field checks,
  the "N/A" notes default and the next-id rule (largest id plus one, or 1
  for an empty table).

Every store call is a function parameter that returns
`Data(rows)` or `Failure`. Python's `int()` on text is a parameter
`parse: string -> Option<int>`. An operation's result records what it
handed to the store, as an `Option`, so "no write was made" can be stated
and proved.

Files:

| file | module | contents |
|---|---|---|
| wrappers.dfy | `Wrappers` | `Option` |
| seqs.dfy | `Seqs` | order-keeping `Filter` and `Map` on sequences, with their lemmas |
| text.dfy | `Text` | Python's `str.strip()` and `str.splitlines()` |
| records.dfy | `Records` | cells, rows, item/pallet/product records, store responses |
| backend.dfy | `Backend` | bulk write and delete, record inserts, item views, selection lists |
| csv_import.dfy | `CsvImport` | the CSV import pipeline |
| gui.dfy | `Gui` | the bulk-add, add-product and add-pallet handlers |

What the code itself promises, and where it falls short:

- The docstring of `importFromCsv` (backend.py:158-160) asks for the header
  `item_id, serial_number, pallet_id`. The per-row handlers (backend.py:183-187)
  skip a row with a missing column or a non-integer item id and carry on with
  the next. A short row is filled out with `None` by the CSV reader, and a
  missing serial number or pallet id then reads as the text "None" and is kept.
  A row too short to reach the item id column escapes both handlers: `int(None)`
  raises a `TypeError`, which only the outer handler (backend.py:238-240)
  catches, so the import inserts nothing. That needs a header that does not
  list `item_id` first, since the reader skips empty rows. See Findings. The rest of the model
  uses the corrected validation, in which such a row is skipped like the others.
- An unresolved pallet is reported by its pallet id (backend.py:214), not by
  its record number. So `ImportOutcome.skipped` holds the validation skips by
  record number, and `ImportOutcome.unresolved` holds the unresolved pallet
  ids, one per affected row, in file order.
- `addPallet` does not check that the product exists. A foreign-key refusal
  by the store is an ordinary failed insert, and the model treats it as one.
- The docstring of `bulkScanItems` (backend.py:29-31) accepts tuples, but the
  code drops them. See Findings. The bulk-add handler builds dicts, on which
  the code and the documented behaviour agree, so the model's handler calls
  the code as written.

## Model

| member | source | states |
|---|---|---|
| Text.Strip | backend.py:173-174 | `str.strip()`: the result has no whitespace at either end and is no longer than the input |
| Text.StripEmptyIffAllSpace | backend.py:176 | a stripped cell is empty exactly when the cell is all whitespace, which is when the row is skipped as missing a value |
| Text.StripIsSlice | backend.py:173-174 | what strip keeps is one contiguous slice of the input, and everything it removes is whitespace |
| Text.StripCharacterized | backend.py:173-174 | stripping whitespace, then trimmed text, then whitespace gives exactly that trimmed text |
| Text.StripOfTrimmed | backend.py:173-174 | text with no whitespace at either end is its own strip, so trimmed cells reach the row unchanged |
| Text.StripIdempotent | guiFunctions.py:257-259 | stripping twice is stripping once, so an id trimmed by the form reaches the store unchanged |
| Text.SplitLines | guiFunctions.py:45 | `str.splitlines()`: no lines for empty text, no line contains a line break, and the first line runs up to the first break |
| Text.SplitLinesKeepsText | guiFunctions.py:45 | joining the lines gives the text with exactly its line-break characters removed, so splitting loses no other character |
| Text.SplitJoin | guiFunctions.py:45 | text written as lines, each ended by a line boundary or `"\r\n"` (the last may end bare when not empty), splits back into exactly those lines: one line per boundary, `"\r\n"` as one, and no empty line after a final terminator |
| Text.EveryTextHasLayout | guiFunctions.py:45 | every text is its lines joined with their own terminators, so the round trip above pins `splitlines` down on every input |
| Text.FirstLineNotBlank | guiFunctions.py:45-48 | text that starts with a visible character, as the box's trimmed non-empty text does, has a first line that is not blank after stripping, which is why the guard implies at least one item |
| Backend.ToItemTuple | backend.py:12-19 | each of the four fields is the column's value when the row has it, and `None` when it does not; a null column reads as `None` too |
| Backend.ToItemTupleIgnoresOtherColumns | backend.py:12-19 | changing or adding any column other than the four item columns leaves the tuple unchanged |
| Backend.ItemTupleOfWrittenRow | backend.py:12-19 | reading back a row that holds a written item's columns gives that item's four fields, whatever other columns the row has |
| Backend.ItemTuples | backend.py:138 | one four-field tuple per store row, in store order |
| Backend.SelectItemsByPallet | backend.py:130-142 | the query key is the trimmed pallet id; a failed query gives an empty view, otherwise one tuple per returned row in store order |
| Backend.SelectItemsShowsWrittenItems | backend.py:130-142 | when the store answers with the rows of some written items, the pallet view shows exactly those items' fields, in store order |
| Backend.TuplesOfWrittenRows | backend.py:137-138 | store rows that hold written items read back as those items' fields, one tuple per row, in store order |
| Backend.SelectItemsByProduct | backend.py:144-155 | a product id with no integer reading gives an empty view, and so does a failed query |
| Backend.SelectItemsByProductShowsWrittenItems | backend.py:144-152 | when the query for the id's integer reading answers with the rows of written items, the product view shows exactly those items' fields, in store order |
| Backend.ItemsWhere | backend.py:39-44 | the payload carries the item of each accepted element, in input order, and nothing else |
| Backend.BulkScanItemsAsWritten | backend.py:28-67 | as written: empty input, or input with no dict, makes no write and gives 0; otherwise exactly the dict elements are sent, in order, and the count is the store's returned-row count (0 on failure) |
| Backend.BulkScanItems | backend.py:28-67 | as documented: the same guards and count, with every dict- or tuple-shaped element sent, in order |
| Backend.TuplesAreNeverWritten | backend.py:39-48 | a list made only of tuples, of any length, is never written as the code stands, and reports 0 |
| Backend.OneTupleCounterexample | backend.py:29-31 | one concrete tuple is dropped by the code as written and sent by the documented behaviour |
| Backend.BulkScanAgreesOnDicts | backend.py:40-42 | on a list of dicts both readings agree, and a non-empty list is sent whole, element for element |
| Backend.BulkRemoveItems | backend.py:69-88 | an empty list makes no delete and gives 0; otherwise the whole list is sent in one delete and the count is the store's deleted-row count (0 on failure) |
| Backend.BulkRemoveCountsDeletedRows | backend.py:69-88 | when the store answers a delete with the table's rows whose serial number is listed, the reported count is exactly the number of those rows |
| Backend.DeletedRowsCount | backend.py:78-81 | with unique serial numbers in the table, the rows a delete removes are as many as the listed serial numbers the table holds |
| Backend.BulkRemoveFewerThanRequested | backend.py:81-83 | for a list without repeats and a table with unique serial numbers, fewer rows than requested are reported exactly when some listed serial number is not in the table |
| Backend.AddPallet | backend.py:90-108 | the record is sent exactly when the product id has an integer reading; it carries the trimmed pallet and shelf ids and that integer, notes are "N/A" exactly when none are given; success is the store accepting the insert |
| Backend.AddPalletKeepsTrimmedIds | backend.py:92-97 | already-trimmed ids reach the pallet table unchanged |
| Backend.AddProduct | backend.py:110-128 | the record is sent exactly when the product id has an integer reading, with the other fields as given; success is the store accepting the insert |
| Backend.AddProductConvertsOnlyTheId | backend.py:112-116 | `int()` is the only conversion: a text id that parses to `n` sends the same record as the integer `n`, and the name, description and model number reach the store untouched |
| Backend.TruthyColumn | backend.py:264 | the list is the column's values with the falsy ones removed, in store order |
| Backend.FetchModelNumbers | backend.py:259-268 | model numbers in store order with falsy entries removed, none falsy, no more than the rows; nothing on failure |
| Backend.FetchPalletIds | backend.py:271-283 | pallet ids in store order with falsy entries removed, none falsy, no more than the rows; nothing on failure |
| Backend.FetchKeepsTruthyColumn | backend.py:279 | when every row has a truthy pallet id, the list is the whole column in store order, so nothing else is dropped |
| CsvImport.CheckRow | backend.py:170-187 | as intended: a row is kept exactly when all three cells are present, `item_id` parses and serial and pallet are non-blank after trimming, and it is kept with its trimmed cells; no row ends the import; the reason names the first failing step, in both directions: a missing `item_id` column, or an integer id with a missing serial or pallet column, is a missing column; an id that does not parse is an invalid id; any other rejected row, a missing cell included, is a missing value |
| CsvImport.CheckRowAsWritten | backend.py:170-187 | as written: a row ends the import exactly when its item id cell is missing; a row is kept exactly when the id parses, the serial and pallet columns exist and their printed, trimmed text is non-blank, so a missing serial number or pallet id is kept as the text "None"; the reason names the first failing step, in both directions: missing column, then invalid id, then blank value |
| CsvImport.ShortRowGetsNoneSerial | backend.py:173-174 | a row one cell short is accepted with serial number "None" as written, and skipped as missing a value when corrected |
| CsvImport.Validate | backend.py:170-187 | without an uncaught exception, every row is either kept or reported skipped |
| CsvImport.ValidateCrashes | backend.py:170-187 | reading ends early exactly when some row raises an exception that no per-row handler catches |
| CsvImport.ValidateKeepsAccepted | backend.py:176-181 | the kept rows are exactly the accepted verdicts, in file order |
| CsvImport.ValidateReportsSkips | backend.py:176-187 | every reported skip names a record of the file whose row was rejected, with that row's reason |
| CsvImport.ValidateSkipsInOrder | backend.py:170 | skips are reported in increasing record order |
| CsvImport.ValidateAppend | backend.py:170-187 | rows are judged independently: validating a file is validating its first part, then the rest from the following record number |
| CsvImport.PalletKeys | backend.py:180-181 | the lookup keys are exactly the pallet ids of the kept rows |
| CsvImport.PalletMap | backend.py:201-202 | the map's keys are exactly the trimmed pallet ids of the lookup answer |
| CsvImport.PalletMapLastWins | backend.py:201-202 | a pallet maps to the product of the last answer row that names it |
| CsvImport.Payload | backend.py:208-223 | every payload item has the product its pallet maps to, and the payload is the kept rows whose pallet resolved, in order, otherwise unchanged |
| CsvImport.Unresolved | backend.py:211-216 | the reported pallet ids are exactly those of the kept rows whose pallet is absent from the map, one per row, in file order; together with the payload they account for every kept row |
| CsvImport.PayloadAppend | backend.py:208-223 | resolution treats rows one by one: the payload of two runs of rows is the payload of the first followed by that of the second |
| CsvImport.CheckAll | backend.py:170 | the reading loop judges every row with the intended check, one verdict per row, in file order |
| CsvImport.CheckAllAsWritten | backend.py:170 | the reading loop judges every row with the check as written, one verdict per row, in file order |
| CsvImport.ImportChecked | backend.py:189-236 | the lookup is made exactly when reading did not crash and some row was kept, and asks for exactly the kept rows' pallet ids; after a successful lookup the unresolved ids are reported, and a non-empty payload is inserted in one call whose count is the store's; with no lookup, a failed lookup or an empty payload there is no insert and the count is 0 |
| CsvImport.ImportFromCsv | backend.py:157-240 | corrected import: the lookup is made exactly when some row is valid, for the valid rows' pallet ids; after a successful lookup the payload of the valid rows is inserted exactly when it is non-empty, and the count is the store's; with no insert the count is 0; every row is either kept or reported, and each report names an invalid row with its reason |
| CsvImport.ImportFromCsvAsWritten | backend.py:157-240 | import as written: a row whose item id cell is missing abandons the import with no lookup, no insert and a count of 0; otherwise the lookup is made exactly when the code accepts some row, for the kept rows' pallet ids, and every row is kept or reported; after a successful lookup the kept rows' payload is inserted exactly when it is non-empty, with the store's count; with no insert the count is 0; each reported skip names a row the code rejects, with its reason |
| CsvImport.KeptRowsAreKeptAsWritten | backend.py:170-181 | when reading runs to the end, the rows the code keeps are exactly the rows it accepts, parsed, in file order |
| CsvImport.KeptAsWrittenNonEmpty | backend.py:189-191 | some row is kept as written exactly when the code accepts some row, which is when the import goes on to the lookup |
| CsvImport.IntendedValidationNeverCrashes | backend.py:170-187 | with corrected validation no row ends the import |
| CsvImport.KeptRowsAreValidRows | backend.py:170-181 | the kept rows are exactly the valid rows, parsed, in file order |
| CsvImport.ValidRowIsKept | backend.py:172-181 | every valid row is kept |
| CsvImport.KeptRowIsValid | backend.py:172-181 | only valid rows are kept |
| CsvImport.ImportLooksUpValidPallets | backend.py:180-198 | the pallet lookup is made exactly when some row is valid, and asks for exactly the trimmed pallet ids of the valid rows |
| CsvImport.ImportStampsPalletProduct | backend.py:201-223 | after a successful lookup, every inserted item's product comes from the answer's last row for its pallet, never from the file; the items sent are the valid rows whose pallet resolved, in file order; the unresolved ids are the pallets of the other valid rows, in file order |
| CsvImport.UnknownPalletSkipsOnlyItsRow | backend.py:208-236 | for any three valid rows where the lookup answer knows the pallets of the first and third rows but not that of the second, those two rows are inserted, each with its own pallet's product, the second row's pallet is reported unresolved, and no row is skipped |
| CsvImport.ResolveOneUnknown | backend.py:211-223 | of three kept rows whose middle pallet is unknown, the outer two are stamped with their own products and the middle pallet alone is unresolved |
| CsvImport.ShortItemIdAbandonsImport | backend.py:172 | as written, a row too short to reach the item id column, after a valid one, makes the import insert nothing and look nothing up; corrected, the valid row's pallet is looked up |
| Gui.MaxOf | guiFunctions.py:60 | the largest id is one of the ids and at least every id |
| Gui.TopId | guiFunctions.py:60 | a descending one-row id query answers nothing for an empty table and otherwise the largest id |
| Gui.NextId | guiFunctions.py:61 | the next id is 1 after an empty answer and the returned id plus one otherwise; there is none when the query failed |
| Gui.NextIdIsFresh | guiFunctions.py:60-61 | on a table of ids the next id is the largest plus one, so above every id in the table, and 1 for an empty table |
| Gui.BuildItems | guiFunctions.py:64-74 | one item per non-blank line at most; ids consecutive from the next id; each item has the pallet, the pallet's product and a trimmed, non-blank serial |
| Gui.BuildItemsKeepsSerials | guiFunctions.py:65-67 | the items' serials are exactly the trimmed non-blank lines, in order |
| Gui.GuiBulkAddSerials | guiFunctions.py:40-76 | nothing is queried when the text has no lines or no pallet is chosen; not-found exactly when the pallet lookup returns no row; otherwise the built items go to `bulkScanItems` as written |
| Gui.BulkAddWritesEveryLine | guiFunctions.py:45-76 | once the form passes its check and both lookups answer, at least one item is built, every built item is sent in one plain insert, the serials are the box's trimmed non-blank lines in order, and every id is above every existing item id |
| Gui.DictsAreSentWhole | guiFunctions.py:68-76 | the handler's dicts all pass the bulk write's filter, so what is sent is the built items themselves |
| Gui.GuiAddProduct | guiFunctions.py:214-248 | the id query comes first and its failure aborts; name and model number are required after trimming; the record sent carries the next id and the trimmed fields |
| Gui.NewProductIdIsFresh | guiFunctions.py:221-233 | a product added through the form gets an id no existing product has, and a trimmed non-blank name and model number |
| Gui.FormNotes | guiFunctions.py:260 | blank notes become "N/A", otherwise the trimmed notes; never empty |
| Gui.GuiAddPallet | guiFunctions.py:250-287 | nothing is queried unless the trimmed pallet id, shelf id and model number are all non-empty; the product is the first match for the trimmed model; the record sent has the trimmed ids and the form's notes |
| Gui.PalletFormRecordIsClean | guiFunctions.py:257-273 | a pallet record sent from the form has trimmed non-blank ids and non-blank notes, whatever was typed |

## Left out

- The hosted store client and every remote call. Each is a function parameter returning rows or `Failure`. `Failure` stands for both an error payload and a raised exception, since the backend turns both into 0 or `False`.
- The window handlers do not check the store's error field. There, `Failure` stands for a raised exception, and an error payload with no data is the empty answer `Data([])`.
- Store ordering (`order(...)` in the selection lists) and the filters inside queries (`eq`, `in_`). Each query's answer is whatever the parameter returns.
- Opening the CSV file and `csv.DictReader`. The input is a sequence of rows with three optional cells. Extra columns and the reader's handling of quoting are not modelled.
- Python's integer syntax for `int()`. It is the abstract parser `parse`.
- A pallet lookup answer whose `product_id` is `None`. The code treats it like a missing pallet. The model's answer rows always carry an integer product.
- Dicts handed to `bulkScanItems` are assumed to have the four item keys. The code forwards any dict unchanged.
- `str()` applied to ids that are not strings. Ids are strings throughout.
- Tk widgets, message boxes, clearing the form, refreshing the dropdowns, and background threading. Message boxes become the handlers' outcome constructors.
- Console printing. Its messages carry the per-row skip reasons, which the model returns as data instead.
- All of main.py: module-level window construction that repeats the handlers, apart from its tuple-shaped items (see Findings).
- `countItemsByModel` and `countPalletsByModel`: pass-through reads of server-side views.
- `removePallet`, `updatePalletShelf`, `viewPalletByAisle`, `get_model_for_pallet` and `clear_dropdown_cache`. They are called from the window code, but their source is not part of this model. So cascading pallet deletion, aisle classification and dropdown caching are not modelled.
- The other window handlers (`gui_bulk_remove`, the view handlers, `gui_import_csv`). They only forward widget text to the backend operations modelled here.
- Gui.GuiAddProduct: the `ValueError` handler around the product form is not modelled. The next id is computed from an integer column, so no `int()` of text happens there.
- Backend.BulkRemoveFewerThanRequested: stated for a table with unique serial numbers and a list without repeats. Upserts key items on the pair `(item_id, serial_number)` (backend.py:52), so a serial number may repeat under different item ids, and then one requested number can delete several rows.
- Backend.SelectItemsByProduct: a product id that is neither text nor integer is not modelled, because cells are integers, text or `None`.

## Findings

| source | as written | input that shows it | evidently intended | confidence | as-written member | corrected member |
|---|---|---|---|---|---|---|
| backend.py:38-44 | `bulkScanItems` keeps only `dict` elements, although its docstring (lines 29-31) accepts tuples and the comment says the list is normalised to dicts; a list of tuples, as main.py:31 builds, writes nothing and reports 0 | `[(1, "S1", "P1", 7)]`, shown by Backend.OneTupleCounterexample and, for any all-tuple list, Backend.TuplesAreNeverWritten | tuples `(item_id, serial_number, pallet_id, product_id)` are converted to dicts and written; on a list of dicts both readings agree (Backend.BulkScanAgreesOnDicts) | high; not executed | Backend.BulkScanItemsAsWritten | Backend.BulkScanItems |
| backend.py:172-174 | for a row shorter than the header, `csv.DictReader` fills in `None`. `str(None).strip()` is `"None"`, so a missing serial number or pallet id is accepted as the text "None". For a row too short to reach the `item_id` column, which needs a header that does not list `item_id` first, `int(None)` raises `TypeError`, which no per-row handler catches, so the whole import returns 0 | a row `5,P1` under header `item_id,pallet_id,serial_number` is kept with serial "None" (CsvImport.ShortRowGetsNoneSerial). Under header `serial_number,pallet_id,item_id`, a valid row followed by the row `S2,P1` makes the import insert nothing (CsvImport.ShortItemIdAbandonsImport) | a missing cell is a missing value: the row is skipped with a reason and the other rows are imported | medium; not executed | CsvImport.CheckRowAsWritten | CsvImport.CheckRow |

=== FILE: backend.dfy ===
/** The store-facing operations of the inventory backend: bulk item writes and
    deletes, pallet and product inserts, item views and the selection lists.
    Every store call is a function parameter; an outcome records what, if
    anything, was handed to the store, so that "no write" can be stated. */
module Backend {
  import opened Wrappers
  import opened Records
  import Seqs
  import Text

  // ---------------------------------------------------------------- item views

  /** `_to_item_tuple`: the tuple shape the item views display, read off a
      store row; a field is a column's value when the row has it, and `None`
      otherwise. */
  function ToItemTuple(row: Row): (t: ItemTuple)
    ensures ItemIdColumn in row ==> t.itemId == row[ItemIdColumn]
    ensures SerialNumberColumn in row ==> t.serialNumber == row[SerialNumberColumn]
    ensures PalletIdColumn in row ==> t.palletId == row[PalletIdColumn]
    ensures ProductIdColumn in row ==> t.productId == row[ProductIdColumn]
    ensures ItemIdColumn !in row ==> t.itemId == NullCell
    ensures SerialNumberColumn !in row ==> t.serialNumber == NullCell
    ensures PalletIdColumn !in row ==> t.palletId == NullCell
    ensures ProductIdColumn !in row ==> t.productId == NullCell
  {
    ItemTuple(Get(row, ItemIdColumn), Get(row, SerialNumberColumn),
              Get(row, PalletIdColumn), Get(row, ProductIdColumn))
  }

  /** The tuple reads only the four item columns: changing or adding any
      other column leaves it as it was. */
  lemma ToItemTupleIgnoresOtherColumns(row: Row, key: string, value: Cell)
    requires key != ItemIdColumn && key != SerialNumberColumn
    requires key != PalletIdColumn && key != ProductIdColumn
    ensures ToItemTuple(row[key := value]) == ToItemTuple(row)
  {
  }

  /** The fields of an item, as the views expect them. */
  function ItemFields(item: Item): ItemTuple {
    ItemTuple(IntCell(item.itemId), TextCell(item.serialNumber),
              TextCell(item.palletId), IntCell(item.productId))
  }

  /** A row that holds at least the columns written for `item`. */
  predicate Holds(row: Row, item: Item) {
    forall key | key in item.ToRow() :: key in row && row[key] == item.ToRow()[key]
  }

  /** Reading back a written item gives its four fields, whatever other
      columns the row carries. */
  lemma ItemTupleOfWrittenRow(item: Item, row: Row)
    requires Holds(row, item)
    ensures ToItemTuple(row) == ItemFields(item)
  {
    assert ItemIdColumn in item.ToRow() && SerialNumberColumn in item.ToRow();
    assert PalletIdColumn in item.ToRow() && ProductIdColumn in item.ToRow();
  }

  function ItemTuples(rows: seq<Row>): (tuples: seq<ItemTuple>)
    ensures |tuples| == |rows|
    ensures forall k :: 0 <= k < |rows| ==> tuples[k] == ToItemTuple(rows[k])
  {
    Seqs.Map(ToItemTuple, rows)
  }

  /** `selectItemsByPallet`: the items of one pallet, queried with the trimmed
      pallet id, one tuple per returned row in store order; nothing on failure. */
  function SelectItemsByPallet(palletId: string, query: string -> Response<Row>): (r: seq<ItemTuple>)
    ensures query(Text.Strip(palletId)).Failure? ==> r == []
    ensures query(Text.Strip(palletId)).Data? ==>
              r == ItemTuples(query(Text.Strip(palletId)).rows)
  {
    match query(Text.Strip(palletId))
    case Failure => []
    case Data(rows) => ItemTuples(rows)
  }

  /** `selectItemsByProduct`: as above, keyed by `int(product_id)`; a value
      with no integer reading gives nothing and queries nothing. */
  function SelectItemsByProduct(productId: Cell, parse: string -> Option<int>,
                                query: int -> Response<Row>): (r: seq<ItemTuple>)
    ensures IntValue(productId, parse).None? ==> r == []
    ensures IntValue(productId, parse).Some? && query(IntValue(productId, parse).value).Data? ==>
              r == ItemTuples(query(IntValue(productId, parse).value).rows)
    ensures IntValue(productId, parse).Some? && query(IntValue(productId, parse).value).Failure? ==>
              r == []
  {
    match IntValue(productId, parse)
    case None => []
    case Some(id) =>
      match query(id)
      case Failure => []
      case Data(rows) => ItemTuples(rows)
  }

  /** Store rows that hold written items read back as those items' fields,
      one tuple per row, in store order. */
  lemma TuplesOfWrittenRows(rows: seq<Row>, items: seq<Item>)
    requires |rows| == |items|
    requires forall k :: 0 <= k < |items| ==> Holds(rows[k], items[k])
    ensures ItemTuples(rows) == Seqs.Map(ItemFields, items)
  {
    forall k | 0 <= k < |items|
      ensures ToItemTuple(rows[k]) == ItemFields(items[k])
    {
      ItemTupleOfWrittenRow(items[k], rows[k]);
    }
  }

  /** When the store answers with the rows of written items, the pallet view
      shows exactly those items' fields, in store order. */
  lemma SelectItemsShowsWrittenItems(palletId: string, query: string -> Response<Row>, items: seq<Item>)
    requires query(Text.Strip(palletId)).Data?
    requires |query(Text.Strip(palletId)).rows| == |items|
    requires forall k :: 0 <= k < |items| ==> Holds(query(Text.Strip(palletId)).rows[k], items[k])
    ensures SelectItemsByPallet(palletId, query) == Seqs.Map(ItemFields, items)
  {
    TuplesOfWrittenRows(query(Text.Strip(palletId)).rows, items);
  }

  /** Likewise for the product view, queried with the integer reading of the
      product id. */
  lemma SelectItemsByProductShowsWrittenItems(productId: Cell, parse: string -> Option<int>,
                                              query: int -> Response<Row>, items: seq<Item>)
    requires IntValue(productId, parse).Some?
    requires query(IntValue(productId, parse).value).Data?
    requires |query(IntValue(productId, parse).value).rows| == |items|
    requires forall k :: 0 <= k < |items| ==> Holds(query(IntValue(productId, parse).value).rows[k], items[k])
    ensures SelectItemsByProduct(productId, parse, query) == Seqs.Map(ItemFields, items)
  {
    TuplesOfWrittenRows(query(IntValue(productId, parse).value).rows, items);
  }

  // ---------------------------------------------------------------- bulk writes

  /** What a bulk write reports: the count, and the payload handed to the
      store (`None` when no store call was made). */
  datatype WriteOutcome<T> = WriteOutcome(count: nat, sent: Option<seq<T>>)

  /** One element of the list given to `bulkScanItems`: a dict with the item
      columns, a 4-tuple (item_id, serial_number, pallet_id, product_id), or
      any other Python value. */
  datatype ScanValue = DictValue(item: Item) | TupleValue(item: Item) | OtherValue

  predicate IsDict(v: ScanValue) {
    v.DictValue?
  }

  predicate IsRecordShaped(v: ScanValue) {
    v.DictValue? || v.TupleValue?
  }

  /** `items` lists the item carried by each of `selected`, in order. */
  predicate CarriedItems(selected: seq<ScanValue>, items: seq<Item>) {
    && |items| == |selected|
    && forall k :: 0 <= k < |items| ==> !selected[k].OtherValue? && items[k] == selected[k].item
  }

  /** The items carried by the values that `keep` accepts, in input order. */
  function ItemsWhere(keep: ScanValue -> bool, values: seq<ScanValue>): (items: seq<Item>)
    requires forall v :: keep(v) ==> !v.OtherValue?
    ensures CarriedItems(Seqs.Filter(keep, values), items)
  {
    if values == [] then []
    else if keep(values[0]) then [values[0].item] + ItemsWhere(keep, values[1..])
    else ItemsWhere(keep, values[1..])
  }

  function ModeFor(ignoreConflicts: bool): WriteMode {
    if ignoreConflicts then UpsertIgnoreDuplicates else Insert
  }

  /** The guard-filter-write sequence shared by both readings of `bulkScanItems`. */
  function ScanWrite(keep: ScanValue -> bool, values: seq<ScanValue>, ignoreConflicts: bool,
                     store: (WriteMode, seq<Item>) -> Response<Item>): WriteOutcome<Item>
    requires forall v :: keep(v) ==> !v.OtherValue?
  {
    if values == [] then WriteOutcome(0, None)
    else
      var payload := ItemsWhere(keep, values);
      if payload == [] then WriteOutcome(0, None)
      else WriteOutcome(RowCount(store(ModeFor(ignoreConflicts), payload)), Some(payload))
  }

  /** `bulkScanItems` as written: only dict elements reach the payload, in
      input order; empty input, or input with no dict, writes nothing and
      reports 0; otherwise the count is the number of rows the store
      returned, not the payload size, and 0 on a store failure. */
  function BulkScanItemsAsWritten(values: seq<ScanValue>, ignoreConflicts: bool,
                                  store: (WriteMode, seq<Item>) -> Response<Item>): (r: WriteOutcome<Item>)
    ensures values == [] ==> r == WriteOutcome(0, None)
    ensures r.sent.None? <==> Seqs.Filter(IsDict, values) == []
    ensures r.sent.Some? ==> CarriedItems(Seqs.Filter(IsDict, values), r.sent.value)
    ensures r.sent.Some? ==> r.count == RowCount(store(ModeFor(ignoreConflicts), r.sent.value))
    ensures r.sent.None? ==> r.count == 0
  {
    ScanWrite(IsDict, values, ignoreConflicts, store)
  }

  /** `bulkScanItems` as its documentation describes it: tuples are normalised
      to dicts, so every dict- or tuple-shaped element is written, in input
      order, and only other values are dropped. */
  function BulkScanItems(values: seq<ScanValue>, ignoreConflicts: bool,
                         store: (WriteMode, seq<Item>) -> Response<Item>): (r: WriteOutcome<Item>)
    ensures values == [] ==> r == WriteOutcome(0, None)
    ensures r.sent.None? <==> Seqs.Filter(IsRecordShaped, values) == []
    ensures r.sent.Some? ==> CarriedItems(Seqs.Filter(IsRecordShaped, values), r.sent.value)
    ensures r.sent.Some? ==> r.count == RowCount(store(ModeFor(ignoreConflicts), r.sent.value))
    ensures r.sent.None? ==> r.count == 0
  {
    ScanWrite(IsRecordShaped, values, ignoreConflicts, store)
  }

  /** A list made only of tuples, as the older window code builds, is never
      written by `bulkScanItems` as written, however long it is. */
  lemma TuplesAreNeverWritten(values: seq<ScanValue>, ignoreConflicts: bool,
                              store: (WriteMode, seq<Item>) -> Response<Item>)
    requires forall k :: 0 <= k < |values| ==> values[k].TupleValue?
    ensures BulkScanItemsAsWritten(values, ignoreConflicts, store) == WriteOutcome(0, None)
  {
    Seqs.FilterNone(IsDict, values);
  }

  /** One concrete tuple: dropped as written, written once normalised. */
  lemma OneTupleCounterexample(store: (WriteMode, seq<Item>) -> Response<Item>)
    ensures BulkScanItemsAsWritten([TupleValue(Item(1, "S1", "P1", 7))], false, store).sent.None?
    ensures BulkScanItems([TupleValue(Item(1, "S1", "P1", 7))], false, store).sent
            == Some([Item(1, "S1", "P1", 7)])
  {
    var values := [TupleValue(Item(1, "S1", "P1", 7))];
    TuplesAreNeverWritten(values, false, store);
    Seqs.FilterAll(IsRecordShaped, values);
    var sent := BulkScanItems(values, false, store).sent;
    assert sent.Some? && |sent.value| == 1 && sent.value[0] == Item(1, "S1", "P1", 7);
    assert sent.value == [Item(1, "S1", "P1", 7)];
  }

  lemma {:induction false} DictsAreRecordShaped(values: seq<ScanValue>)
    requires forall k :: 0 <= k < |values| ==> values[k].DictValue?
    ensures ItemsWhere(IsRecordShaped, values) == ItemsWhere(IsDict, values)
  {
    if values != [] {
      DictsAreRecordShaped(values[1..]);
    }
  }

  /** On a list of dicts the two readings agree, and every element is written. */
  lemma BulkScanAgreesOnDicts(values: seq<ScanValue>, ignoreConflicts: bool,
                              store: (WriteMode, seq<Item>) -> Response<Item>)
    requires forall k :: 0 <= k < |values| ==> values[k].DictValue?
    ensures BulkScanItems(values, ignoreConflicts, store) == BulkScanItemsAsWritten(values, ignoreConflicts, store)
    ensures values != [] ==> BulkScanItems(values, ignoreConflicts, store).sent.Some?
    ensures values != [] ==> CarriedItems(values, BulkScanItems(values, ignoreConflicts, store).sent.value)
  {
    DictsAreRecordShaped(values);
    Seqs.FilterAll(IsRecordShaped, values);
  }

  /** `bulkRemoveItems`: an empty list deletes nothing and reports 0; otherwise
      the whole list is sent in one delete, and the count is the number of
      rows the store reports deleted (0 on failure), which may be fewer than
      requested. */
  function BulkRemoveItems(serials: seq<string>, delete: seq<string> -> Response<Item>): (r: WriteOutcome<string>)
    ensures r.sent.None? <==> serials == []
    ensures r.sent.Some? ==> r.sent.value == serials
    ensures r.sent.Some? ==> r.count == RowCount(delete(serials))
    ensures r.sent.None? ==> r.count == 0
  {
    if serials == [] then WriteOutcome(0, None)
    else WriteOutcome(RowCount(delete(serials)), Some(serials))
  }

  /** Whether a delete for `serials` removes `item`. */
  function DeletedBy(serials: seq<string>): Item -> bool {
    (item: Item) => item.serialNumber in serials
  }

  /** The serial numbers in an item table. */
  function SerialSet(table: seq<Item>): set<string> {
    if table == [] then {} else {table[0].serialNumber} + SerialSet(table[1..])
  }

  predicate UniqueSerials(table: seq<Item>) {
    forall i, j :: 0 <= i < j < |table| ==> table[i].serialNumber != table[j].serialNumber
  }

  /** When the store answers a delete with the table's rows whose serial
      number is listed, the reported count is exactly the number of such rows. */
  lemma BulkRemoveCountsDeletedRows(serials: seq<string>, table: seq<Item>,
                                    delete: seq<string> -> Response<Item>)
    requires delete(serials) == Data(Seqs.Filter(DeletedBy(serials), table))
    ensures BulkRemoveItems(serials, delete).count == |Seqs.Filter(DeletedBy(serials), table)|
  {
    if serials == [] {
      Seqs.FilterNone(DeletedBy(serials), table);
    }
  }

  /** With unique serial numbers, the rows a delete removes are as many as
      the listed serials the table holds. */
  lemma {:induction false} DeletedRowsCount(serials: seq<string>, table: seq<Item>)
    requires UniqueSerials(table)
    ensures |Seqs.Filter(DeletedBy(serials), table)| == |SerialSet(table) * (set x | x in serials)|
  {
    if table != [] {
      var rest := table[1..];
      var h := table[0].serialNumber;
      assert UniqueSerials(rest) by {
        forall i, j | 0 <= i < j < |rest|
          ensures rest[i].serialNumber != rest[j].serialNumber
        {
          assert rest[i] == table[i + 1] && rest[j] == table[j + 1];
        }
      }
      DeletedRowsCount(serials, rest);
      SerialSetMembers(table, h);
      var requested := set x | x in serials;
      var p := DeletedBy(serials);
      if h in serials {
        assert p(table[0]);
        assert Seqs.Filter(p, table) == [table[0]] + Seqs.Filter(p, rest);
        assert h !in SerialSet(rest) * requested;
        assert SerialSet(table) * requested == {h} + SerialSet(rest) * requested;
      } else {
        assert !p(table[0]);
        assert SerialSet(table) * requested == SerialSet(rest) * requested;
      }
    }
  }

  /** With unique serial numbers, the first row's serial number is not among
      those of the other rows. */
  lemma {:induction false} SerialSetMembers(table: seq<Item>, x: string)
    requires UniqueSerials(table) && table != []
    ensures x in SerialSet(table[1..]) ==> x != table[0].serialNumber
  {
    if x in SerialSet(table[1..]) {
      var k := SerialIndex(table[1..], x);
      assert table[1..][k] == table[k + 1];
    }
  }

  /** The index of a row of `table` carrying the serial number `x`. */
  lemma {:induction false} SerialIndex(table: seq<Item>, x: string) returns (k: nat)
    requires x in SerialSet(table)
    ensures k < |table| && table[k].serialNumber == x
  {
    if table[0].serialNumber == x {
      k := 0;
    } else {
      k := SerialIndex(table[1..], x);
      assert table[1..][k] == table[k + 1];
      k := k + 1;
    }
  }

  /** The "fewer than requested" case: for a list without repeats and a table
      with unique serial numbers, the delete reports fewer rows than were
      requested exactly when some listed serial number is not in the table. */
  lemma BulkRemoveFewerThanRequested(serials: seq<string>, table: seq<Item>,
                                     delete: seq<string> -> Response<Item>)
    requires delete(serials) == Data(Seqs.Filter(DeletedBy(serials), table))
    requires UniqueSerials(table) && Seqs.Distinct(serials)
    ensures BulkRemoveItems(serials, delete).count < |serials| <==>
              exists k :: 0 <= k < |serials| && serials[k] !in SerialSet(table)
  {
    BulkRemoveCountsDeletedRows(serials, table, delete);
    DeletedRowsCount(serials, table);
    Seqs.DistinctCard(serials);
    var requested := set x | x in serials;
    var found := SerialSet(table) * requested;
    var missing := requested - SerialSet(table);
    assert requested == found + missing && found * missing == {};
    assert |requested| == |found| + |missing|;
    if exists k :: 0 <= k < |serials| && serials[k] !in SerialSet(table) {
      var k :| 0 <= k < |serials| && serials[k] !in SerialSet(table);
      assert serials[k] in missing;
    } else {
      forall x | x in requested
        ensures x in SerialSet(table)
      {
        var k :| 0 <= k < |serials| && serials[k] == x;
      }
      assert missing == {};
    }
  }

  // ---------------------------------------------------------------- pallet and product inserts

  /** What an insert of one record reports: success, and the record handed to
      the store (`None` when building it failed before any store call). */
  datatype AddOutcome<T> = AddOutcome(ok: bool, sent: Option<T>)

  /** `addPallet`: ids trimmed, `product_id` converted by `int()`, notes
      defaulted to "N/A" only when none is given. A product id with no integer
      reading fails before the store is called; otherwise success is exactly
      the store accepting the insert. */
  function AddPallet(palletId: string, shelfId: string, productId: Cell, notes: Option<string>,
                     parse: string -> Option<int>,
                     insert: PalletRecord -> Response<PalletRecord>): (r: AddOutcome<PalletRecord>)
    ensures r.sent.Some? <==> IntValue(productId, parse).Some?
    ensures r.ok <==> r.sent.Some? && insert(r.sent.value).Data?
    ensures r.sent.Some? ==>
              && r.sent.value.productId == IntValue(productId, parse).value
              && Text.IsTrimmed(r.sent.value.palletId) && Text.IsTrimmed(r.sent.value.shelfId)
              && r.sent.value.palletId == Text.Strip(palletId)
              && r.sent.value.shelfId == Text.Strip(shelfId)
    ensures r.sent.Some? && notes.None? ==> r.sent.value.notes == DefaultNotes
    ensures r.sent.Some? && notes.Some? ==> r.sent.value.notes == notes.value
  {
    match IntValue(productId, parse)
    case None => AddOutcome(false, None)
    case Some(product) =>
      var record := PalletRecord(Text.Strip(palletId), Text.Strip(shelfId), product, notes.GetOr(DefaultNotes));
      AddOutcome(insert(record).Data?, Some(record))
  }

  /** Ids that are already trimmed reach the pallet table unchanged. */
  lemma AddPalletKeepsTrimmedIds(palletId: string, shelfId: string, productId: int, notes: Option<string>,
                                 parse: string -> Option<int>, insert: PalletRecord -> Response<PalletRecord>)
    requires palletId == Text.Strip(palletId) && shelfId == Text.Strip(shelfId)
    ensures AddPallet(palletId, shelfId, IntCell(productId), notes, parse, insert).sent
            == Some(PalletRecord(palletId, shelfId, productId, notes.GetOr(DefaultNotes)))
  {
  }

  /** `addProduct`: `product_id` converted by `int()`, the other fields stored
      as given; success is exactly the store accepting the insert. */
  function AddProduct(productId: Cell, name: string, description: string, modelNumber: string,
                      parse: string -> Option<int>,
                      insert: ProductRecord -> Response<ProductRecord>): (r: AddOutcome<ProductRecord>)
    ensures r.sent.Some? <==> IntValue(productId, parse).Some?
    ensures r.ok <==> r.sent.Some? && insert(r.sent.value).Data?
    ensures r.sent.Some? ==>
              r.sent.value == ProductRecord(IntValue(productId, parse).value, name, description, modelNumber)
  {
    match IntValue(productId, parse)
    case None => AddOutcome(false, None)
    case Some(id) =>
      var record := ProductRecord(id, name, description, modelNumber);
      AddOutcome(insert(record).Data?, Some(record))
  }

  /** `int()` is the only conversion `addProduct` makes: a text id that
      parses to `n` sends the same record as the integer `n`, and the name,
      description and model number reach the store untouched. */
  lemma AddProductConvertsOnlyTheId(text: string, n: int, name: string, description: string,
                                    modelNumber: string, parse: string -> Option<int>,
                                    insert: ProductRecord -> Response<ProductRecord>)
    requires parse(text) == Some(n)
    ensures AddProduct(TextCell(text), name, description, modelNumber, parse, insert)
            == AddProduct(IntCell(n), name, description, modelNumber, parse, insert)
    ensures AddProduct(TextCell(text), name, description, modelNumber, parse, insert).sent
            == Some(ProductRecord(n, name, description, modelNumber))
  {
  }

  // ---------------------------------------------------------------- selection lists

  /** The `key` column of each row in store order; an absent column reads as `None`. */
  function Column(rows: seq<Row>, key: string): (cells: seq<Cell>)
    ensures |cells| == |rows|
    ensures forall k :: 0 <= k < |rows| ==> cells[k] == Get(rows[k], key)
  {
    seq(|rows|, k requires 0 <= k < |rows| => Get(rows[k], key))
  }

  /** The truthy values of the `key` column, in store order. */
  function TruthyColumn(rows: seq<Row>, key: string): (cells: seq<Cell>)
    ensures cells == Seqs.Filter(Truthy, Column(rows, key))
  {
    if rows == [] then []
    else
      assert Column(rows, key) == [Column(rows, key)[0]] + Column(rows[1..], key);
      (if key in rows[0] && Truthy(rows[0][key]) then [rows[0][key]] else [])
      + TruthyColumn(rows[1..], key)
  }

  /** `fetch_model_numbers`: the non-empty model numbers of the product rows,
      in the order the store returned them; nothing on failure. */
  function FetchModelNumbers(resp: Response<Row>): (r: seq<Cell>)
    ensures resp.Failure? ==> r == []
    ensures resp.Data? ==> r == Seqs.Filter(Truthy, Column(resp.rows, ModelNumberColumn))
    ensures forall k :: 0 <= k < |r| ==> Truthy(r[k])
    ensures resp.Data? ==> |r| <= |resp.rows|
  {
    match resp
    case Failure => []
    case Data(rows) => TruthyColumn(rows, ModelNumberColumn)
  }

  /** `fetch_pallet_ids`: the non-empty pallet ids of the pallet rows, in the
      order the store returned them; nothing on failure. */
  function FetchPalletIds(resp: Response<Row>): (r: seq<Cell>)
    ensures resp.Failure? ==> r == []
    ensures resp.Data? ==> r == Seqs.Filter(Truthy, Column(resp.rows, PalletIdColumn))
    ensures forall k :: 0 <= k < |r| ==> Truthy(r[k])
    ensures resp.Data? ==> |r| <= |resp.rows|
  {
    match resp
    case Failure => []
    case Data(rows) => TruthyColumn(rows, PalletIdColumn)
  }

  /** A selection list drops only falsy entries: when every row carries a
      truthy value, the list is the whole column in store order. */
  lemma FetchKeepsTruthyColumn(rows: seq<Row>)
    requires forall k :: 0 <= k < |rows| ==> PalletIdColumn in rows[k] && Truthy(rows[k][PalletIdColumn])
    ensures FetchPalletIds(Data(rows)) == Column(rows, PalletIdColumn)
  {
    Seqs.FilterAll(Truthy, Column(rows, PalletIdColumn));
  }
}

=== FILE: csv_import.dfy ===
/** `importFromCsv`: tabular rows with columns item_id, serial_number and
    pallet_id become item records in four stages: per-row validation, pallet
    key collection, one batched pallet-to-product lookup, and one bulk insert
    of the rows whose pallet resolved. The lookup and the insert are function
    parameters; Python's `int()` on a cell is the parameter `parse`. */
module CsvImport {
  import opened Wrappers
  import opened Records
  import Seqs
  import Text

  /** One cell of a CSV row as the dict reader delivers it: the header lacks
      the column, the row is shorter than the header (the reader fills in
      `None`), or the text of the cell. */
  datatype Field = NoColumn | NoValue | Value(text: string)

  /** The three columns the import reads; any further columns are ignored. */
  datatype CsvRow = CsvRow(itemId: Field, serialNumber: Field, palletId: Field)

  /** A row that passed validation: parsed id, trimmed serial and pallet id. */
  datatype ParsedRow = ParsedRow(itemId: int, serialNumber: string, palletId: string)

  /** Why a row was skipped during validation. */
  datatype SkipReason = MissingColumn | InvalidItemId | MissingValue

  /** A skipped row, by its record number in the file (the header is record 1). */
  datatype Skip = Skip(record: int, reason: SkipReason)

  /** The verdict on one row. `Crashed` is an exception that no per-row
      handler catches, which ends the whole import. */
  datatype RowCheck = Accepted(row: ParsedRow) | Rejected(reason: SkipReason) | Crashed

  /** One row of the pallet lookup's answer. */
  datatype PalletRow = PalletRow(palletId: string, productId: int)

  const FirstDataRecord := 2

  // ---------------------------------------------------------------- row validation

  /** What the import demands of a row: all three cells present, `item_id`
      an integer, and serial number and pallet id non-blank once trimmed. */
  predicate RowIsValid(row: CsvRow, parse: string -> Option<int>) {
    && row.itemId.Value? && parse(row.itemId.text).Some?
    && row.serialNumber.Value? && Text.Strip(row.serialNumber.text) != []
    && row.palletId.Value? && Text.Strip(row.palletId.text) != []
  }

  /** The steps run in order and the first failing one names the reason:
      the header lacks `item_id`, or the id is an integer and the header
      lacks `serial_number` or `pallet_id`. */
  predicate MissingColumnFirst(row: CsvRow, parse: string -> Option<int>) {
    || row.itemId.NoColumn?
    || (&& row.itemId.Value? && parse(row.itemId.text).Some?
        && (row.serialNumber.NoColumn? || row.palletId.NoColumn?))
  }

  /** The record a valid row contributes. */
  function Parsed(row: CsvRow, parse: string -> Option<int>): ParsedRow
    requires RowIsValid(row, parse)
  {
    ParsedRow(parse(row.itemId.text).value, Text.Strip(row.serialNumber.text), Text.Strip(row.palletId.text))
  }

  /** `str(row[key]).strip()` on a column the header has: a missing cell is
      `None`, which prints as "None". */
  function TextAsWritten(f: Field): string
    requires !f.NoColumn?
  {
    match f
    case NoValue => "None"
    case Value(t) => Text.Strip(t)
  }

  /** Row validation as written: `int(None)` on the item id of a row too
      short to reach that column (possible only when the header does not list
      `item_id` first, since the reader skips empty rows) raises a TypeError
      that only the outer handler catches, and a short row's missing serial
      number or pallet id reads as the text "None". The first failing step
      names the skip reason. */
  function CheckRowAsWritten(row: CsvRow, parse: string -> Option<int>): (c: RowCheck)
    ensures c.Crashed? <==> row.itemId.NoValue?
    ensures c.Accepted? <==>
              && row.itemId.Value? && parse(row.itemId.text).Some?
              && !row.serialNumber.NoColumn? && !row.palletId.NoColumn?
              && TextAsWritten(row.serialNumber) != [] && TextAsWritten(row.palletId) != []
    ensures c.Accepted? ==> row.itemId.Value? && parse(row.itemId.text) == Some(c.row.itemId)
    ensures c.Accepted? ==> !row.serialNumber.NoColumn? && !row.palletId.NoColumn?
    ensures c.Accepted? && !row.serialNumber.NoColumn? && !row.palletId.NoColumn? ==>
              && c.row.serialNumber == TextAsWritten(row.serialNumber) && c.row.serialNumber != []
              && c.row.palletId == TextAsWritten(row.palletId) && c.row.palletId != []
    ensures c == Rejected(MissingColumn) <==> MissingColumnFirst(row, parse)
    ensures c == Rejected(InvalidItemId) <==> row.itemId.Value? && parse(row.itemId.text).None?
    ensures c == Rejected(MissingValue) <==>
              && row.itemId.Value? && parse(row.itemId.text).Some?
              && !row.serialNumber.NoColumn? && !row.palletId.NoColumn?
              && (TextAsWritten(row.serialNumber) == [] || TextAsWritten(row.palletId) == [])
  {
    match row.itemId
    case NoColumn => Rejected(MissingColumn)
    case NoValue => Crashed
    case Value(t) =>
      match parse(t)
      case None => Rejected(InvalidItemId)
      case Some(id) =>
        if row.serialNumber.NoColumn? || row.palletId.NoColumn? then Rejected(MissingColumn)
        else
          var serial := TextAsWritten(row.serialNumber);
          var pallet := TextAsWritten(row.palletId);
          if serial == [] || pallet == [] then Rejected(MissingValue)
          else Accepted(ParsedRow(id, serial, pallet))
  }

  /** Row validation as intended: a short row's missing cell is a missing
      value like a blank one, so a row survives exactly when it is valid,
      survives with its trimmed cells, and never ends the import. */
  function CheckRow(row: CsvRow, parse: string -> Option<int>): (c: RowCheck)
    ensures !c.Crashed?
    ensures c.Accepted? <==> RowIsValid(row, parse)
    ensures c.Accepted? ==> c.row == Parsed(row, parse)
    ensures c.Accepted? ==> Text.IsTrimmed(c.row.serialNumber) && Text.IsTrimmed(c.row.palletId)
    ensures c == Rejected(MissingColumn) <==> MissingColumnFirst(row, parse)
    ensures c == Rejected(InvalidItemId) <==> row.itemId.Value? && parse(row.itemId.text).None?
    ensures c == Rejected(MissingValue) <==>
              || row.itemId.NoValue?
              || (&& row.itemId.Value? && parse(row.itemId.text).Some?
                  && !row.serialNumber.NoColumn? && !row.palletId.NoColumn?
                  && !RowIsValid(row, parse))
  {
    match row.itemId
    case NoColumn => Rejected(MissingColumn)
    case NoValue => Rejected(MissingValue)
    case Value(t) =>
      match parse(t)
      case None => Rejected(InvalidItemId)
      case Some(id) =>
        if row.serialNumber.NoColumn? || row.palletId.NoColumn? then Rejected(MissingColumn)
        else if row.serialNumber.NoValue? || row.palletId.NoValue? then Rejected(MissingValue)
        else
          var serial := Text.Strip(row.serialNumber.text);
          var pallet := Text.Strip(row.palletId.text);
          if serial == [] || pallet == [] then Rejected(MissingValue)
          else Accepted(ParsedRow(id, serial, pallet))
  }

  /** A row one cell short of a header that lists pallet_id before
      serial_number: as written it is accepted with the serial number "None". */
  lemma ShortRowGetsNoneSerial(parse: string -> Option<int>)
    requires parse("5") == Some(5)
    ensures CheckRowAsWritten(CsvRow(Value("5"), NoValue, Value("P1")), parse)
            == Accepted(ParsedRow(5, "None", "P1"))
    ensures CheckRow(CsvRow(Value("5"), NoValue, Value("P1")), parse) == Rejected(MissingValue)
  {
    Text.StripOfTrimmed("P1");
  }

  // ---------------------------------------------------------------- validating every row

  /** The rows kept for import, the rows skipped, and whether an uncaught
      exception ended the reading early. */
  datatype Validation = Validation(accepted: seq<ParsedRow>, skipped: seq<Skip>, crashed: bool)

  predicate IsAccepted(c: RowCheck) {
    c.Accepted?
  }

  function AsAccepted(r: ParsedRow): RowCheck {
    Accepted(r)
  }

  /** Each skip names a rejected row of `checks` (which starts at `record`),
      with that row's reason. */
  predicate SkipsPointAtRejected(checks: seq<RowCheck>, record: int, skipped: seq<Skip>) {
    forall j :: 0 <= j < |skipped| ==>
      && record <= skipped[j].record < record + |checks|
      && checks[skipped[j].record - record] == Rejected(skipped[j].reason)
  }

  predicate RecordsIncrease(skipped: seq<Skip>) {
    forall j, j' :: 0 <= j < j' < |skipped| ==> skipped[j].record < skipped[j'].record
  }

  /** The reading loop: each row is handled on its own, in file order, until
      the first uncaught exception; without one, every row is either kept or
      reported skipped. */
  function Validate(checks: seq<RowCheck>, record: int): (v: Validation)
    ensures !v.crashed ==> |v.accepted| + |v.skipped| == |checks|
    decreases |checks|
  {
    if checks == [] then Validation([], [], false)
    else
      var rest := Validate(checks[1..], record + 1);
      match checks[0]
      case Crashed => Validation([], [], true)
      case Rejected(reason) => rest.(skipped := [Skip(record, reason)] + rest.skipped)
      case Accepted(r) => rest.(accepted := [r] + rest.accepted)
  }

  /** Reading ends early exactly when some row raises an uncaught exception. */
  lemma {:induction false} ValidateCrashes(checks: seq<RowCheck>, record: int)
    ensures Validate(checks, record).crashed <==> exists k :: 0 <= k < |checks| && checks[k].Crashed?
    decreases |checks|
  {
    if checks != [] {
      ValidateCrashes(checks[1..], record + 1);
      if exists k :: 0 <= k < |checks| && checks[k].Crashed? {
        var k :| 0 <= k < |checks| && checks[k].Crashed?;
        if k > 0 {
          assert checks[1..][k - 1].Crashed?;
        }
      }
      if exists k :: 0 <= k < |checks[1..]| && checks[1..][k].Crashed? {
        var k :| 0 <= k < |checks[1..]| && checks[1..][k].Crashed?;
        assert checks[k + 1].Crashed?;
      }
    }
  }

  /** Without a crash the kept rows are exactly the accepted ones, in file order. */
  lemma {:induction false} ValidateKeepsAccepted(checks: seq<RowCheck>, record: int)
    requires !Validate(checks, record).crashed
    ensures Seqs.Map(AsAccepted, Validate(checks, record).accepted) == Seqs.Filter(IsAccepted, checks)
    decreases |checks|
  {
    if checks != [] {
      var rest := Validate(checks[1..], record + 1);
      ValidateKeepsAccepted(checks[1..], record + 1);
      match checks[0]
      case Rejected(_) =>
      case Accepted(r) =>
        assert Seqs.Map(AsAccepted, [r] + rest.accepted) == [Accepted(r)] + Seqs.Map(AsAccepted, rest.accepted);
    }
  }

  /** Every skip names a rejected row, with its reason. */
  lemma {:induction false} ValidateReportsSkips(checks: seq<RowCheck>, record: int)
    ensures SkipsPointAtRejected(checks, record, Validate(checks, record).skipped)
    decreases |checks|
  {
    if checks != [] {
      ValidateReportsSkips(checks[1..], record + 1);
      var rest := Validate(checks[1..], record + 1).skipped;
      forall j | 0 <= j < |rest|
        ensures record + 1 <= rest[j].record < record + |checks|
        ensures checks[rest[j].record - record] == Rejected(rest[j].reason)
      {
        assert checks[1..][rest[j].record - (record + 1)] == checks[rest[j].record - record];
      }
      if checks[0].Rejected? {
        var skipped := [Skip(record, checks[0].reason)] + rest;
        assert forall j :: 1 <= j < |skipped| ==> skipped[j] == rest[j - 1];
      }
    }
  }

  /** Skips are reported in increasing record order. */
  lemma {:induction false} ValidateSkipsInOrder(checks: seq<RowCheck>, record: int)
    ensures RecordsIncrease(Validate(checks, record).skipped)
    decreases |checks|
  {
    if checks != [] {
      ValidateSkipsInOrder(checks[1..], record + 1);
      ValidateReportsSkips(checks[1..], record + 1);
      var rest := Validate(checks[1..], record + 1).skipped;
      if checks[0].Rejected? {
        var skipped := [Skip(record, checks[0].reason)] + rest;
        assert forall j :: 1 <= j < |skipped| ==> skipped[j] == rest[j - 1];
      }
    }
  }

  /** Combining the validation of a file's first part with that of the rest. */
  function Join(first: Validation, second: Validation): Validation {
    if first.crashed then first
    else Validation(first.accepted + second.accepted, first.skipped + second.skipped, second.crashed)
  }

  /** Rows are validated independently: validating `a + b` is validating `a`,
      then `b` from the record after `a`'s last one. */
  lemma {:induction false} ValidateAppend(a: seq<RowCheck>, b: seq<RowCheck>, record: int)
    ensures Validate(a + b, record) == Join(Validate(a, record), Validate(b, record + |a|))
    decreases |a|
  {
    if a == [] {
      assert a + b == b;
    } else {
      var ab := a + b;
      assert ab[0] == a[0];
      assert ab[1..] == a[1..] + b;
      ValidateAppend(a[1..], b, record + 1);
      var x := Validate(a[1..], record + 1);
      var y := Validate(b, record + |a|);
      var rest := Validate(ab[1..], record + 1);
      assert rest == Join(x, y);
      match a[0]
      case Crashed =>
      case Rejected(reason) =>
        assert Validate(ab, record) == rest.(skipped := [Skip(record, reason)] + rest.skipped);
        if !x.crashed {
          assert [Skip(record, reason)] + (x.skipped + y.skipped) == ([Skip(record, reason)] + x.skipped) + y.skipped;
        }
      case Accepted(r) =>
        assert Validate(ab, record) == rest.(accepted := [r] + rest.accepted);
        if !x.crashed {
          assert [r] + (x.accepted + y.accepted) == ([r] + x.accepted) + y.accepted;
        }
    }
  }

  // ---------------------------------------------------------------- pallet resolution

  /** The distinct pallet ids of the kept rows: the keys of the one lookup. */
  function PalletKeys(accepted: seq<ParsedRow>): (keys: set<string>)
    ensures forall k :: 0 <= k < |accepted| ==> accepted[k].palletId in keys
    ensures forall p | p in keys :: exists k :: 0 <= k < |accepted| && accepted[k].palletId == p
  {
    set k | 0 <= k < |accepted| :: accepted[k].palletId
  }

  /** No later row of `rows` names the same trimmed pallet as row `k`. */
  predicate LastFor(rows: seq<PalletRow>, k: int)
    requires 0 <= k < |rows|
  {
    forall j :: k < j < |rows| ==> Text.Strip(rows[j].palletId) != Text.Strip(rows[k].palletId)
  }

  /** The lookup answer as a dict from trimmed pallet id to product id, filled
      in answer order, so a later row for the same pallet overrides an earlier one. */
  function PalletMap(rows: seq<PalletRow>): (m: map<string, int>)
    ensures m.Keys == set k | 0 <= k < |rows| :: Text.Strip(rows[k].palletId)
  {
    if rows == [] then map[]
    else
      var init := rows[..|rows| - 1];
      var last := rows[|rows| - 1];
      assert forall k :: 0 <= k < |rows| - 1 ==> rows[k] == init[k];
      PalletMap(init)[Text.Strip(last.palletId) := last.productId]
  }

  /** Each pallet resolves to the product of the last answer row that names it. */
  lemma {:induction false} PalletMapLastWins(rows: seq<PalletRow>, k: int)
    requires 0 <= k < |rows| && LastFor(rows, k)
    ensures PalletMap(rows)[Text.Strip(rows[k].palletId)] == rows[k].productId
    decreases |rows|
  {
    if k < |rows| - 1 {
      var init := rows[..|rows| - 1];
      assert init[k] == rows[k];
      assert LastFor(init, k);
      PalletMapLastWins(init, k);
    }
  }

  /** The item a kept row becomes once its pallet resolved. */
  function Stamp(r: ParsedRow, product: int): Item {
    Item(r.itemId, r.serialNumber, r.palletId, product)
  }

  function Unstamp(item: Item): ParsedRow {
    ParsedRow(item.itemId, item.serialNumber, item.palletId)
  }

  /** Whether a kept row's pallet resolved, or did not, in the map `pm`. */
  function Resolves(pm: map<string, int>): ParsedRow -> bool {
    (r: ParsedRow) => r.palletId in pm
  }

  function Misses(pm: map<string, int>): ParsedRow -> bool {
    (r: ParsedRow) => r.palletId !in pm
  }

  function PalletOf(r: ParsedRow): string {
    r.palletId
  }

  /** The payload: the kept rows whose pallet is in the map, in order, each
      stamped with its pallet's product; a row whose pallet is absent is left
      out and nothing else changes. */
  function Payload(accepted: seq<ParsedRow>, pm: map<string, int>): (items: seq<Item>)
    ensures forall k :: 0 <= k < |items| ==>
              items[k].palletId in pm && items[k].productId == pm[items[k].palletId]
    ensures Seqs.Map(Unstamp, items) == Seqs.Filter(Resolves(pm), accepted)
  {
    if accepted == [] then []
    else
      var rest := Payload(accepted[1..], pm);
      var r := accepted[0];
      if r.palletId in pm then
        assert Seqs.Map(Unstamp, [Stamp(r, pm[r.palletId])] + rest) == [r] + Seqs.Map(Unstamp, rest);
        [Stamp(r, pm[r.palletId])] + rest
      else rest
  }

  /** The pallet ids of the kept rows that did not resolve, in row order. */
  function Unresolved(accepted: seq<ParsedRow>, pm: map<string, int>): (ids: seq<string>)
    ensures ids == Seqs.Map(PalletOf, Seqs.Filter(Misses(pm), accepted))
    ensures forall k :: 0 <= k < |ids| ==> ids[k] !in pm
    ensures |ids| + |Payload(accepted, pm)| == |accepted|
  {
    if accepted == [] then []
    else
      var rest := Unresolved(accepted[1..], pm);
      if accepted[0].palletId in pm then rest
      else
        var r := accepted[0];
        assert Seqs.Map(PalletOf, [r] + Seqs.Filter(Misses(pm), accepted[1..]))
               == [r.palletId] + Seqs.Map(PalletOf, Seqs.Filter(Misses(pm), accepted[1..]));
        [r.palletId] + rest
  }

  /** Resolution treats rows one by one: the payload of `a + b` is the
      payload of `a` followed by that of `b`. */
  lemma {:induction false} PayloadAppend(a: seq<ParsedRow>, b: seq<ParsedRow>, pm: map<string, int>)
    ensures Payload(a + b, pm) == Payload(a, pm) + Payload(b, pm)
  {
    if a == [] {
      assert a + b == b;
    } else {
      assert (a + b)[0] == a[0];
      assert (a + b)[1..] == a[1..] + b;
      PayloadAppend(a[1..], b, pm);
    }
  }

  // ---------------------------------------------------------------- the pipeline

  /** What an import reports: the inserted count, the key set sent to the
      pallet lookup (`None` when no lookup was made), the payload sent to the
      insert (`None` when none was made), the skipped rows and the pallet ids
      that did not resolve. */
  datatype ImportOutcome = ImportOutcome(inserted: nat, lookedUp: Option<set<string>>,
                                         sent: Option<seq<Item>>, skipped: seq<Skip>,
                                         unresolved: seq<string>)

  /** The import once every row has its verdict. It stops with 0 and no
      further call when reading crashed, when no row was kept, when the
      lookup fails, or when no row resolved; otherwise it inserts the payload
      once and reports the store's row count. */
  function ImportChecked(checks: seq<RowCheck>, lookup: set<string> -> Response<PalletRow>,
                         insert: seq<Item> -> Response<Item>): (r: ImportOutcome)
    ensures r.lookedUp.None? <==> Validate(checks, FirstDataRecord).crashed || Validate(checks, FirstDataRecord).accepted == []
    ensures r.lookedUp.Some? ==> r.lookedUp.value == PalletKeys(Validate(checks, FirstDataRecord).accepted)
    ensures r.sent.Some? ==> r.lookedUp.Some? && lookup(r.lookedUp.value).Data?
    ensures r.sent.Some? ==> r.sent.value != [] && r.sent.value == Payload(Validate(checks, FirstDataRecord).accepted,
               PalletMap(lookup(r.lookedUp.value).rows))
    ensures r.sent.Some? ==> r.inserted == RowCount(insert(r.sent.value))
    ensures r.sent.None? ==> r.inserted == 0
    ensures r.lookedUp.Some? && lookup(r.lookedUp.value).Data? ==>
              var pm := PalletMap(lookup(r.lookedUp.value).rows);
              && r.unresolved == Unresolved(Validate(checks, FirstDataRecord).accepted, pm)
              && (Payload(Validate(checks, FirstDataRecord).accepted, pm) != [] ==>
                    r.sent == Some(Payload(Validate(checks, FirstDataRecord).accepted, pm)))
    ensures r.lookedUp.None? || lookup(r.lookedUp.value).Failure? ==> r.sent.None? && r.unresolved == []
    ensures r.skipped == Validate(checks, FirstDataRecord).skipped
  {
    var v := Validate(checks, FirstDataRecord);
    if v.crashed || v.accepted == [] then ImportOutcome(0, None, None, v.skipped, [])
    else
      var keys := PalletKeys(v.accepted);
      match lookup(keys)
      case Failure => ImportOutcome(0, Some(keys), None, v.skipped, [])
      case Data(answer) =>
        var pm := PalletMap(answer);
        var items := Payload(v.accepted, pm);
        var missing := Unresolved(v.accepted, pm);
        if items == [] then ImportOutcome(0, Some(keys), None, v.skipped, missing)
        else ImportOutcome(RowCount(insert(items)), Some(keys), Some(items), v.skipped, missing)
  }

  function CheckAll(rows: seq<CsvRow>, parse: string -> Option<int>): (checks: seq<RowCheck>)
    ensures |checks| == |rows|
    ensures forall k :: 0 <= k < |rows| ==> checks[k] == CheckRow(rows[k], parse)
  {
    seq(|rows|, k requires 0 <= k < |rows| => CheckRow(rows[k], parse))
  }

  function CheckAllAsWritten(rows: seq<CsvRow>, parse: string -> Option<int>): (checks: seq<RowCheck>)
    ensures |checks| == |rows|
    ensures forall k :: 0 <= k < |rows| ==> checks[k] == CheckRowAsWritten(rows[k], parse)
  {
    seq(|rows|, k requires 0 <= k < |rows| => CheckRowAsWritten(rows[k], parse))
  }

  /** The parsed form of the rows the code as written accepts, in file order. */
  function KeptAsWritten(rows: seq<CsvRow>, parse: string -> Option<int>): (kept: seq<ParsedRow>)
    ensures |kept| <= |rows|
  {
    if rows == [] then []
    else
      match CheckRowAsWritten(rows[0], parse)
      case Accepted(p) => [p] + KeptAsWritten(rows[1..], parse)
      case _ => KeptAsWritten(rows[1..], parse)
  }

  /** Some row is kept as written exactly when the code accepts some row. */
  lemma {:induction false} KeptAsWrittenNonEmpty(rows: seq<CsvRow>, parse: string -> Option<int>)
    ensures KeptAsWritten(rows, parse) != [] <==>
              exists k :: 0 <= k < |rows| && CheckRowAsWritten(rows[k], parse).Accepted?
    decreases |rows|
  {
    if rows != [] {
      KeptAsWrittenNonEmpty(rows[1..], parse);
      if exists k :: 0 <= k < |rows[1..]| && CheckRowAsWritten(rows[1..][k], parse).Accepted? {
        var k :| 0 <= k < |rows[1..]| && CheckRowAsWritten(rows[1..][k], parse).Accepted?;
        assert CheckRowAsWritten(rows[k + 1], parse).Accepted?;
      }
      if exists k :: 0 <= k < |rows| && CheckRowAsWritten(rows[k], parse).Accepted? {
        var k :| 0 <= k < |rows| && CheckRowAsWritten(rows[k], parse).Accepted?;
        if k > 0 {
          assert CheckRowAsWritten(rows[1..][k - 1], parse).Accepted?;
        }
      }
    }
  }

  /** When reading runs to the end, the rows the code keeps are `KeptAsWritten`. */
  lemma {:induction false} KeptRowsAreKeptAsWritten(rows: seq<CsvRow>, parse: string -> Option<int>, record: int)
    ensures !Validate(CheckAllAsWritten(rows, parse), record).crashed ==>
              Validate(CheckAllAsWritten(rows, parse), record).accepted == KeptAsWritten(rows, parse)
    decreases |rows|
  {
    if rows != [] {
      var checks := CheckAllAsWritten(rows, parse);
      assert checks[1..] == CheckAllAsWritten(rows[1..], parse);
      KeptRowsAreKeptAsWritten(rows[1..], parse, record + 1);
    }
  }

  /** `importFromCsv` with rows validated as intended: the lookup is made
      exactly when some row is valid, for the valid rows' pallet ids; what is
      inserted is the payload of the valid rows; every row is either kept or
      reported, and each report names an invalid row with its reason. */
  function ImportFromCsv(rows: seq<CsvRow>, parse: string -> Option<int>,
                         lookup: set<string> -> Response<PalletRow>,
                         insert: seq<Item> -> Response<Item>): (r: ImportOutcome)
    ensures r.lookedUp.None? <==> ValidRows(rows, parse) == []
    ensures r.lookedUp.Some? ==> r.lookedUp.value == PalletKeys(ValidRows(rows, parse))
    ensures r.sent.Some? ==>
              && r.lookedUp.Some? && lookup(r.lookedUp.value).Data?
              && r.sent.value == Payload(ValidRows(rows, parse), PalletMap(lookup(r.lookedUp.value).rows))
              && r.inserted == RowCount(insert(r.sent.value))
    ensures r.lookedUp.Some? && lookup(r.lookedUp.value).Data? &&
            Payload(ValidRows(rows, parse), PalletMap(lookup(r.lookedUp.value).rows)) != [] ==>
              r.sent == Some(Payload(ValidRows(rows, parse), PalletMap(lookup(r.lookedUp.value).rows)))
    ensures r.sent.None? ==> r.inserted == 0
    ensures |r.skipped| + |ValidRows(rows, parse)| == |rows|
    ensures forall j :: 0 <= j < |r.skipped| ==>
              && FirstDataRecord <= r.skipped[j].record < FirstDataRecord + |rows|
              && !RowIsValid(rows[r.skipped[j].record - FirstDataRecord], parse)
              && CheckRow(rows[r.skipped[j].record - FirstDataRecord], parse) == Rejected(r.skipped[j].reason)
  {
    IntendedValidationNeverCrashes(rows, parse);
    KeptRowsAreValidRows(rows, parse, FirstDataRecord);
    ValidateReportsSkips(CheckAll(rows, parse), FirstDataRecord);
    ImportChecked(CheckAll(rows, parse), lookup, insert)
  }

  /** `importFromCsv` with rows validated as the code does: one row whose item
      id cell is missing abandons the whole import, with no lookup, no insert
      and a count of 0. Otherwise the lookup is made exactly when the code
      accepts some row, for the kept rows' pallet ids, and the payload of the
      kept rows is inserted whenever it is non-empty; each reported skip
      names a row the code rejects. */
  function ImportFromCsvAsWritten(rows: seq<CsvRow>, parse: string -> Option<int>,
                                  lookup: set<string> -> Response<PalletRow>,
                                  insert: seq<Item> -> Response<Item>): (r: ImportOutcome)
    ensures (exists k :: 0 <= k < |rows| && rows[k].itemId.NoValue?) ==>
              r.inserted == 0 && r.lookedUp.None? && r.sent.None?
    ensures (forall k :: 0 <= k < |rows| ==> !rows[k].itemId.NoValue?) ==>
              && (r.lookedUp.Some? <==> exists k :: 0 <= k < |rows| && CheckRowAsWritten(rows[k], parse).Accepted?)
              && |r.skipped| + |KeptAsWritten(rows, parse)| == |rows|
    ensures r.lookedUp.Some? ==> r.lookedUp.value == PalletKeys(KeptAsWritten(rows, parse))
    ensures r.sent.Some? ==>
              && r.lookedUp.Some? && lookup(r.lookedUp.value).Data?
              && r.sent.value == Payload(KeptAsWritten(rows, parse), PalletMap(lookup(r.lookedUp.value).rows))
              && r.inserted == RowCount(insert(r.sent.value))
    ensures r.lookedUp.Some? && lookup(r.lookedUp.value).Data? &&
            Payload(KeptAsWritten(rows, parse), PalletMap(lookup(r.lookedUp.value).rows)) != [] ==>
              r.sent == Some(Payload(KeptAsWritten(rows, parse), PalletMap(lookup(r.lookedUp.value).rows)))
    ensures r.sent.None? ==> r.inserted == 0
    ensures forall j :: 0 <= j < |r.skipped| ==>
              && FirstDataRecord <= r.skipped[j].record < FirstDataRecord + |rows|
              && CheckRowAsWritten(rows[r.skipped[j].record - FirstDataRecord], parse) == Rejected(r.skipped[j].reason)
  {
    ValidateCrashes(CheckAllAsWritten(rows, parse), FirstDataRecord);
    ValidateReportsSkips(CheckAllAsWritten(rows, parse), FirstDataRecord);
    KeptRowsAreKeptAsWritten(rows, parse, FirstDataRecord);
    KeptAsWrittenNonEmpty(rows, parse);
    ImportChecked(CheckAllAsWritten(rows, parse), lookup, insert)
  }

  // ---------------------------------------------------------------- properties of the import

  /** Validation as intended never ends the reading early. */
  lemma IntendedValidationNeverCrashes(rows: seq<CsvRow>, parse: string -> Option<int>)
    ensures !Validate(CheckAll(rows, parse), FirstDataRecord).crashed
  {
    ValidateCrashes(CheckAll(rows, parse), FirstDataRecord);
  }

  /** The kept rows are exactly the valid rows, parsed, in file order. */
  lemma {:induction false} KeptRowsAreValidRows(rows: seq<CsvRow>, parse: string -> Option<int>, record: int)
    ensures Validate(CheckAll(rows, parse), record).accepted == ValidRows(rows, parse)
    decreases |rows|
  {
    if rows != [] {
      var checks := CheckAll(rows, parse);
      assert checks[1..] == CheckAll(rows[1..], parse);
      KeptRowsAreValidRows(rows[1..], parse, record + 1);
    }
  }

  /** The parsed form of the valid rows, in file order. */
  function ValidRows(rows: seq<CsvRow>, parse: string -> Option<int>): (kept: seq<ParsedRow>)
    ensures |kept| <= |rows|
  {
    if rows == [] then []
    else if RowIsValid(rows[0], parse) then [Parsed(rows[0], parse)] + ValidRows(rows[1..], parse)
    else ValidRows(rows[1..], parse)
  }

  /** Every valid row is kept. */
  lemma {:induction false} ValidRowIsKept(rows: seq<CsvRow>, parse: string -> Option<int>, k: int)
    requires 0 <= k < |rows| && RowIsValid(rows[k], parse)
    ensures Parsed(rows[k], parse) in ValidRows(rows, parse)
    decreases |rows|
  {
    if k > 0 {
      assert rows[1..][k - 1] == rows[k];
      ValidRowIsKept(rows[1..], parse, k - 1);
    }
  }

  /** Only valid rows are kept. */
  lemma {:induction false} KeptRowIsValid(rows: seq<CsvRow>, parse: string -> Option<int>, x: ParsedRow)
    requires x in ValidRows(rows, parse)
    ensures exists k :: 0 <= k < |rows| && RowIsValid(rows[k], parse) && Parsed(rows[k], parse) == x
    decreases |rows|
  {
    if !(RowIsValid(rows[0], parse) && x == Parsed(rows[0], parse)) {
      KeptRowIsValid(rows[1..], parse, x);
      var k :| 0 <= k < |rows[1..]| && RowIsValid(rows[1..][k], parse) && Parsed(rows[1..][k], parse) == x;
      assert rows[k + 1] == rows[1..][k];
    }
  }

  /** Rows are judged one at a time: the kept rows of `[r] + rest` are `r`'s
      parsed form, when it is valid, followed by the kept rows of `rest`. */
  lemma ValidRowsCons(r: CsvRow, rest: seq<CsvRow>, parse: string -> Option<int>)
    ensures ValidRows([r] + rest, parse)
            == (if RowIsValid(r, parse) then [Parsed(r, parse)] else []) + ValidRows(rest, parse)
  {
    assert ([r] + rest)[0] == r;
    assert ([r] + rest)[1..] == rest;
  }

  /** The pallet lookup is made exactly when some row is valid, and asks for
      exactly the trimmed pallet ids of the valid rows. */
  lemma ImportLooksUpValidPallets(rows: seq<CsvRow>, parse: string -> Option<int>,
                                  lookup: set<string> -> Response<PalletRow>,
                                  insert: seq<Item> -> Response<Item>)
    ensures ImportFromCsv(rows, parse, lookup, insert).lookedUp.None? <==>
              forall k :: 0 <= k < |rows| ==> !RowIsValid(rows[k], parse)
    ensures ImportFromCsv(rows, parse, lookup, insert).lookedUp.Some? ==>
              && (forall k :: 0 <= k < |rows| && RowIsValid(rows[k], parse) ==>
                    Parsed(rows[k], parse).palletId in ImportFromCsv(rows, parse, lookup, insert).lookedUp.value)
              && (forall p | p in ImportFromCsv(rows, parse, lookup, insert).lookedUp.value ::
                    exists k :: 0 <= k < |rows| && RowIsValid(rows[k], parse) && Parsed(rows[k], parse).palletId == p)
  {
    IntendedValidationNeverCrashes(rows, parse);
    KeptRowsAreValidRows(rows, parse, FirstDataRecord);
    var kept := ValidRows(rows, parse);
    if exists k :: 0 <= k < |rows| && RowIsValid(rows[k], parse) {
      var k :| 0 <= k < |rows| && RowIsValid(rows[k], parse);
      ValidRowIsKept(rows, parse, k);
    }
    if kept != [] {
      assert kept[0] in kept;
      KeptRowIsValid(rows, parse, kept[0]);
      var keys := PalletKeys(kept);
      forall p | p in keys
        ensures exists k :: 0 <= k < |rows| && RowIsValid(rows[k], parse) && Parsed(rows[k], parse).palletId == p
      {
        var i :| 0 <= i < |kept| && kept[i].palletId == p;
        assert kept[i] in kept;
        KeptRowIsValid(rows, parse, kept[i]);
      }
      forall k | 0 <= k < |rows| && RowIsValid(rows[k], parse)
        ensures Parsed(rows[k], parse).palletId in keys
      {
        ValidRowIsKept(rows, parse, k);
        var i :| 0 <= i < |kept| && kept[i] == Parsed(rows[k], parse);
      }
    }
  }

  /** Every inserted item carries the product of its pallet from the lookup
      answer, never a value from the file; when the answer names the pallet
      once (or last) in row `j`, that is row `j`'s product. The payload is the
      valid rows whose pallet resolved, in file order. */
  lemma ImportStampsPalletProduct(rows: seq<CsvRow>, parse: string -> Option<int>,
                                  lookup: set<string> -> Response<PalletRow>,
                                  insert: seq<Item> -> Response<Item>)
    ensures var r := ImportFromCsv(rows, parse, lookup, insert);
      r.sent.Some? ==> r.lookedUp.Some? && lookup(r.lookedUp.value).Data? && |r.sent.value| <= |rows|
    ensures var r := ImportFromCsv(rows, parse, lookup, insert);
      r.lookedUp.Some? && lookup(r.lookedUp.value).Data? ==>
        var answer := lookup(r.lookedUp.value).rows;
        var sent := r.sent.GetOr([]);
        && (forall k, j ::
              (&& 0 <= k < |sent| && 0 <= j < |answer|
               && Text.Strip(answer[j].palletId) == sent[k].palletId && LastFor(answer, j))
              ==> sent[k].productId == answer[j].productId)
        && Seqs.Map(Unstamp, sent) == Seqs.Filter(Resolves(PalletMap(answer)), ValidRows(rows, parse))
        && r.unresolved == Seqs.Map(PalletOf, Seqs.Filter(Misses(PalletMap(answer)), ValidRows(rows, parse)))
  {
    var r := ImportFromCsv(rows, parse, lookup, insert);
    IntendedValidationNeverCrashes(rows, parse);
    KeptRowsAreValidRows(rows, parse, FirstDataRecord);
    if r.lookedUp.Some? && lookup(r.lookedUp.value).Data? {
      var answer := lookup(r.lookedUp.value).rows;
      var sent := r.sent.GetOr([]);
      forall k, j | 0 <= k < |sent| && 0 <= j < |answer|
                    && Text.Strip(answer[j].palletId) == sent[k].palletId && LastFor(answer, j)
        ensures sent[k].productId == answer[j].productId
      {
        PalletMapLastWins(answer, j);
      }
    }
  }

  /** Three valid rows are all kept, in order. */
  lemma ValidRowsOfThree(rows: seq<CsvRow>, parse: string -> Option<int>)
    requires |rows| == 3
    requires RowIsValid(rows[0], parse) && RowIsValid(rows[1], parse) && RowIsValid(rows[2], parse)
    ensures var kept := ValidRows(rows, parse);
      |kept| == 3 && kept[0] == Parsed(rows[0], parse) && kept[1] == Parsed(rows[1], parse)
      && kept[2] == Parsed(rows[2], parse)
  {
    var t1 := rows[1..];
    var t2 := t1[1..];
    assert [rows[0]] + t1 == rows && [rows[1]] + t2 == t1 && [rows[2]] + [] == t2;
    ValidRowsCons(rows[2], [], parse);
    ValidRowsCons(rows[1], t2, parse);
    ValidRowsCons(rows[0], t1, parse);
  }

  /** Resolution of three kept rows whose outer two pallets the map knows
      and whose middle one it does not. */
  lemma ResolveOneUnknown(kept: seq<ParsedRow>, pm: map<string, int>)
    requires |kept| == 3
    requires kept[0].palletId in pm && kept[2].palletId in pm && kept[1].palletId !in pm
    ensures Payload(kept, pm) == [Stamp(kept[0], pm[kept[0].palletId]), Stamp(kept[2], pm[kept[2].palletId])]
    ensures Unresolved(kept, pm) == [kept[1].palletId]
  {
    assert kept[1..][1..] == [kept[2]] && kept[1..][1..][1..] == [];
  }

  /** A file of three valid rows whose middle row names a pallet the lookup
      does not know, while it knows the pallets of the other two: those two
      are inserted, each stamped with its own pallet's product, the unknown
      pallet is reported, and no row is skipped. */
  lemma UnknownPalletSkipsOnlyItsRow(rows: seq<CsvRow>, parse: string -> Option<int>,
                                     lookup: set<string> -> Response<PalletRow>,
                                     insert: seq<Item> -> Response<Item>, answer: seq<PalletRow>)
    requires |rows| == 3
    requires RowIsValid(rows[0], parse) && RowIsValid(rows[1], parse) && RowIsValid(rows[2], parse)
    requires lookup({Parsed(rows[0], parse).palletId, Parsed(rows[1], parse).palletId,
                     Parsed(rows[2], parse).palletId}) == Data(answer)
    requires Parsed(rows[0], parse).palletId in PalletMap(answer)
    requires Parsed(rows[2], parse).palletId in PalletMap(answer)
    requires Parsed(rows[1], parse).palletId !in PalletMap(answer)
    ensures var r := ImportFromCsv(rows, parse, lookup, insert);
      var pm := PalletMap(answer);
      var a, c := Parsed(rows[0], parse), Parsed(rows[2], parse);
      && r.sent == Some([Stamp(a, pm[a.palletId]), Stamp(c, pm[c.palletId])])
      && r.inserted == RowCount(insert(r.sent.value))
      && r.unresolved == [Parsed(rows[1], parse).palletId]
      && r.skipped == []
  {
    var kept := [Parsed(rows[0], parse), Parsed(rows[1], parse), Parsed(rows[2], parse)];
    ValidRowsOfThree(rows, parse);
    assert ValidRows(rows, parse) == kept;
    IntendedValidationNeverCrashes(rows, parse);
    KeptRowsAreValidRows(rows, parse, FirstDataRecord);
    KeysOfThree(kept);
    ResolveOneUnknown(kept, PalletMap(answer));
  }

  /** The keys of three kept rows are their three pallet ids. */
  lemma KeysOfThree(kept: seq<ParsedRow>)
    requires |kept| == 3
    ensures PalletKeys(kept) == {kept[0].palletId, kept[1].palletId, kept[2].palletId}
  {
    var keys := PalletKeys(kept);
    assert kept[0].palletId in keys && kept[1].palletId in keys && kept[2].palletId in keys;
  }

  /** A valid row followed by a row too short to reach the item id column
      (under a header that lists `item_id` last): as written the whole import is abandoned with no
      lookup and no insert; as intended the valid row still goes to the lookup. */
  lemma ShortItemIdAbandonsImport(good: CsvRow, short: CsvRow, parse: string -> Option<int>,
                                  lookup: set<string> -> Response<PalletRow>,
                                  insert: seq<Item> -> Response<Item>)
    requires RowIsValid(good, parse) && short.itemId.NoValue?
    ensures ImportFromCsvAsWritten([good, short], parse, lookup, insert) == ImportOutcome(0, None, None, [], [])
    ensures ImportFromCsv([good, short], parse, lookup, insert).lookedUp == Some({Parsed(good, parse).palletId})
  {
    var rows := [good, short];
    var asWritten := CheckAllAsWritten(rows, parse);
    assert asWritten[1] == Crashed;
    ValidateCrashes(asWritten, FirstDataRecord);
    assert asWritten[1..] == [Crashed];
    assert Validate(asWritten, FirstDataRecord).skipped == [];
    var kept := [Parsed(good, parse)];
    assert [good] + [short] == rows && [short] + [] == [short];
    ValidRowsCons(short, [], parse);
    ValidRowsCons(good, [short], parse);
    assert ValidRows(rows, parse) == kept;
    IntendedValidationNeverCrashes(rows, parse);
    KeptRowsAreValidRows(rows, parse, FirstDataRecord);
    var keys := PalletKeys(kept);
    assert kept[0].palletId in keys;
    assert keys == {kept[0].palletId};
  }
}

=== FILE: gui.dfy ===
/** The form handlers of the desktop window that build what the store is
    sent: bulk entry of serial numbers for one pallet, a new product, and a
    new pallet. The widgets' text is passed in, each store query is a
    function parameter, and message boxes become the outcome's constructor. */
module Gui {
  import opened Wrappers
  import opened Records
  import Seqs
  import Text
  import Backend

  // ---------------------------------------------------------------- the next id

  /** The largest of a non-empty list of ids. */
  function MaxOf(ids: seq<int>): (m: int)
    requires ids != []
    ensures m in ids
    ensures forall k :: 0 <= k < |ids| ==> ids[k] <= m
  {
    if |ids| == 1 then ids[0]
    else
      var rest := MaxOf(ids[1..]);
      if ids[0] >= rest then ids[0] else rest
  }

  /** What the store answers to `select id order by id desc limit 1` on a
      table holding `ids`: nothing for an empty table, else the largest id. */
  function TopId(ids: seq<int>): (top: seq<int>)
    ensures |top| <= 1
    ensures top == [] <==> ids == []
    ensures top != [] ==> top[0] in ids && forall k :: 0 <= k < |ids| ==> ids[k] <= top[0]
  {
    if ids == [] then [] else [MaxOf(ids)]
  }

  /** `next_id`: one past the id the descending query returned, or 1 when it
      returned nothing. A failed query raises, so there is no next id. */
  function NextId(top: Response<int>): (next: Option<int>)
    ensures next.None? <==> top.Failure?
    ensures top.Data? && top.rows == [] ==> next == Some(1)
    ensures top.Data? && top.rows != [] ==> next == Some(top.rows[0] + 1)
  {
    match top
    case Failure => None
    case Data(rows) => if rows == [] then Some(1) else Some(rows[0] + 1)
  }

  /** The next id is above every id already in the table, and is 1 for an
      empty table. */
  lemma NextIdIsFresh(ids: seq<int>)
    ensures NextId(Data(TopId(ids))).Some?
    ensures forall k :: 0 <= k < |ids| ==> ids[k] < NextId(Data(TopId(ids))).value
    ensures ids == [] ==> NextId(Data(TopId(ids))) == Some(1)
    ensures ids != [] ==> NextId(Data(TopId(ids))).value == MaxOf(ids) + 1
  {
  }

  // ---------------------------------------------------------------- bulk entry of serial numbers

  predicate NonBlank(s: string) {
    s != []
  }

  function SerialOf(item: Item): string {
    item.serialNumber
  }

  /** The serial numbers a list of lines contributes: each line trimmed,
      blank ones dropped, in order. */
  function SerialsOf(lines: seq<string>): seq<string> {
    Seqs.Filter(NonBlank, Seqs.Map(Text.Strip, lines))
  }

  /** The loop over the lines: every non-blank trimmed line becomes an item
      for the pallet, numbered consecutively from `nextId`; blank lines
      consume no id. */
  function BuildItems(lines: seq<string>, nextId: int, palletId: string, productId: int): (items: seq<Item>)
    ensures |items| <= |lines|
    ensures forall k :: 0 <= k < |items| ==>
              && items[k].itemId == nextId + k
              && items[k].palletId == palletId && items[k].productId == productId
              && items[k].serialNumber != [] && Text.IsTrimmed(items[k].serialNumber)
  {
    if lines == [] then []
    else
      var serial := Text.Strip(lines[0]);
      if serial != [] then [Item(nextId, serial, palletId, productId)] + BuildItems(lines[1..], nextId + 1, palletId, productId)
      else BuildItems(lines[1..], nextId, palletId, productId)
  }

  /** The items carry exactly the trimmed non-blank lines, in order. */
  lemma {:induction false} BuildItemsKeepsSerials(lines: seq<string>, nextId: int, palletId: string, productId: int)
    ensures Seqs.Map(SerialOf, BuildItems(lines, nextId, palletId, productId)) == SerialsOf(lines)
    decreases |lines|
  {
    if lines != [] {
      var stripped := Seqs.Map(Text.Strip, lines);
      assert stripped[1..] == Seqs.Map(Text.Strip, lines[1..]);
      var serial := stripped[0];
      if serial != [] {
        BuildItemsKeepsSerials(lines[1..], nextId + 1, palletId, productId);
        var item := Item(nextId, serial, palletId, productId);
        var rest := BuildItems(lines[1..], nextId + 1, palletId, productId);
        assert BuildItems(lines, nextId, palletId, productId) == [item] + rest;
        assert SerialsOf(lines) == [serial] + SerialsOf(lines[1..]);
        assert Seqs.Map(SerialOf, [item] + rest) == [serial] + Seqs.Map(SerialOf, rest);
      } else {
        BuildItemsKeepsSerials(lines[1..], nextId, palletId, productId);
        assert SerialsOf(lines) == SerialsOf(lines[1..]);
      }
    }
  }

  /** The dict the form builds for an item. */
  function AsDict(item: Item): Backend.ScanValue {
    Backend.DictValue(item)
  }

  /** How a press of the bulk-add button ends. */
  datatype BulkAddOutcome =
    | MissingData                 // no serial lines, or no pallet chosen; nothing queried
    | QueryFailed                 // a lookup raised; nothing written
    | PalletNotFound              // the chosen pallet has no row; nothing written
    | Submitted(items: seq<Item>, result: Backend.WriteOutcome<Item>)

  /** `gui_bulk_add_serials`: the box's text is trimmed and split into lines;
      with lines and a chosen pallet, the pallet's product is looked up by
      the chosen text as it stands, then the next item id, and the items are
      built and written in one plain insert. */
  function GuiBulkAddSerials(text: string, palletChoice: string,
                             palletProduct: string -> Response<int>, topItemIds: Response<int>,
                             store: (WriteMode, seq<Item>) -> Response<Item>): (r: BulkAddOutcome)
    ensures r.MissingData? <==> Text.SplitLines(Text.Strip(text)) == [] || palletChoice == []
    ensures r.PalletNotFound? <==> !r.MissingData? && palletProduct(palletChoice) == Data([])
    ensures r.QueryFailed? <==>
              && !r.MissingData?
              && (palletProduct(palletChoice).Failure? || (palletProduct(palletChoice).Data? && palletProduct(palletChoice).rows != [] && topItemIds.Failure?))
    ensures r.Submitted? ==>
              && palletProduct(palletChoice).Data? && palletProduct(palletChoice).rows != []
              && NextId(topItemIds).Some?
              && r.items == BuildItems(Text.SplitLines(Text.Strip(text)), NextId(topItemIds).value,
                                       Text.Strip(palletChoice), palletProduct(palletChoice).rows[0])
              && r.result == Backend.BulkScanItemsAsWritten(Seqs.Map(AsDict, r.items), false, store)
  {
    var lines := Text.SplitLines(Text.Strip(text));
    if lines == [] || palletChoice == [] then MissingData
    else
      match palletProduct(palletChoice)
      case Failure => QueryFailed
      case Data(rows) =>
        if rows == [] then PalletNotFound
        else
          match NextId(topItemIds)
          case None => QueryFailed
          case Some(next) =>
            var items := BuildItems(lines, next, Text.Strip(palletChoice), rows[0]);
            Submitted(items, Backend.BulkScanItemsAsWritten(Seqs.Map(AsDict, items), false, store))
  }

  /** Once the form passes its check and both lookups answer, every built
      item is sent in one plain insert, at least one item is built, the
      serial numbers are the trimmed non-blank lines of the box in order, and
      the ids are consecutive from one past the largest item id. */
  lemma BulkAddWritesEveryLine(text: string, palletChoice: string,
                               palletProduct: string -> Response<int>, ids: seq<int>,
                               store: (WriteMode, seq<Item>) -> Response<Item>)
    requires Text.SplitLines(Text.Strip(text)) != [] && palletChoice != []
    requires palletProduct(palletChoice).Data? && palletProduct(palletChoice).rows != []
    ensures var r := GuiBulkAddSerials(text, palletChoice, palletProduct, Data(TopId(ids)), store);
      && r.Submitted?
      && r.items != []
      && r.result.sent == Some(r.items)
      && r.result.count == RowCount(store(Insert, r.items))
      && Seqs.Map(SerialOf, r.items) == SerialsOf(Text.SplitLines(Text.Strip(text)))
      && (forall k, j :: 0 <= k < |r.items| && 0 <= j < |ids| ==> ids[j] < r.items[k].itemId)
      && (forall k :: 0 <= k < |r.items| ==> r.items[k].palletId == Text.Strip(palletChoice))
  {
    var s := Text.Strip(text);
    var lines := Text.SplitLines(s);
    NextIdIsFresh(ids);
    var next := NextId(Data(TopId(ids))).value;
    var items := BuildItems(lines, next, Text.Strip(palletChoice), palletProduct(palletChoice).rows[0]);
    Text.StripEmptyIffAllSpace(lines[0]);
    Text.FirstLineNotBlank(s);
    BuildItemsKeepsSerials(lines, next, Text.Strip(palletChoice), palletProduct(palletChoice).rows[0]);
    DictsAreSentWhole(items, store);
  }

  /** The form's dicts are all written: what is sent is the items themselves. */
  lemma DictsAreSentWhole(items: seq<Item>, store: (WriteMode, seq<Item>) -> Response<Item>)
    requires items != []
    ensures Backend.BulkScanItemsAsWritten(Seqs.Map(AsDict, items), false, store).sent == Some(items)
  {
    var values := Seqs.Map(AsDict, items);
    Backend.BulkScanAgreesOnDicts(values, false, store);
    var sent := Backend.BulkScanItemsAsWritten(values, false, store).sent.value;
    assert Backend.CarriedItems(values, sent);
    assert sent == items;
  }

  // ---------------------------------------------------------------- the product and pallet forms

  /** How a press of an add-record button ends. */
  datatype FormOutcome<T> =
    | FormMissingData             // a required field is blank; no insert
    | FormQueryFailed             // a lookup raised; no insert
    | FormNotFound                // the lookup found no row; no insert
    | FormSubmitted(outcome: Backend.AddOutcome<T>)

  /** `gui_add_product`: the next product id is queried first, before the
      fields are read; the name, description and model number are trimmed,
      and name and model number are required. The description may be blank. */
  function GuiAddProduct(name: string, description: string, modelNumber: string,
                         topProductIds: Response<int>,
                         insert: ProductRecord -> Response<ProductRecord>): (r: FormOutcome<ProductRecord>)
    ensures r.FormQueryFailed? <==> topProductIds.Failure?
    ensures !r.FormNotFound?
    ensures r.FormMissingData? <==>
              topProductIds.Data? && (Text.Strip(name) == [] || Text.Strip(modelNumber) == [])
    ensures r.FormSubmitted? ==>
              && r.outcome.sent == Some(ProductRecord(NextId(topProductIds).value, Text.Strip(name),
                                                      Text.Strip(description), Text.Strip(modelNumber)))
              && (r.outcome.ok <==> insert(r.outcome.sent.value).Data?)
  {
    match NextId(topProductIds)
    case None => FormQueryFailed
    case Some(pid) =>
      var pname, pdesc, mnum := Text.Strip(name), Text.Strip(description), Text.Strip(modelNumber);
      if pname == [] || mnum == [] then FormMissingData
      // the id is already an integer, so `int()` parses no text here
      else FormSubmitted(Backend.AddProduct(IntCell(pid), pname, pdesc, mnum, (s: string) => None, insert))
  }

  /** A product added through the form gets an id no product in the table
      has, and its name and model number are trimmed and non-blank. */
  lemma NewProductIdIsFresh(name: string, description: string, modelNumber: string, ids: seq<int>,
                            insert: ProductRecord -> Response<ProductRecord>)
    ensures var r := GuiAddProduct(name, description, modelNumber, Data(TopId(ids)), insert);
      r.FormSubmitted? ==>
        && r.outcome.sent.Some?
        && r.outcome.sent.value.productId !in ids
        && r.outcome.sent.value.productName != [] && Text.IsTrimmed(r.outcome.sent.value.productName)
        && r.outcome.sent.value.modelNumber != [] && Text.IsTrimmed(r.outcome.sent.value.modelNumber)
  {
    NextIdIsFresh(ids);
  }

  /** The notes a pallet form sends: the trimmed text, or "N/A" when blank. */
  function FormNotes(notes: string): (n: string)
    ensures n != []
    ensures Text.Strip(notes) != [] ==> n == Text.Strip(notes)
    ensures Text.Strip(notes) == [] ==> n == DefaultNotes
  {
    var t := Text.Strip(notes);
    if t != [] then t else DefaultNotes
  }

  /** `gui_add_pallet`: the pallet id, shelf id, model number and notes are
      trimmed, blank notes become "N/A", and the three ids are required
      before any query; the product is looked up by the trimmed model number
      and the first match is used. */
  function GuiAddPallet(palletId: string, shelfId: string, modelNumber: string, notes: string,
                        productByModel: string -> Response<int>,
                        insert: PalletRecord -> Response<PalletRecord>): (r: FormOutcome<PalletRecord>)
    ensures r.FormMissingData? <==>
              Text.Strip(palletId) == [] || Text.Strip(shelfId) == [] || Text.Strip(modelNumber) == []
    ensures r.FormQueryFailed? <==> !r.FormMissingData? && productByModel(Text.Strip(modelNumber)).Failure?
    ensures r.FormNotFound? <==> !r.FormMissingData? && productByModel(Text.Strip(modelNumber)) == Data([])
    ensures r.FormSubmitted? ==>
              && productByModel(Text.Strip(modelNumber)).Data? && productByModel(Text.Strip(modelNumber)).rows != []
              && r.outcome.sent == Some(PalletRecord(Text.Strip(palletId), Text.Strip(shelfId),
                                                     productByModel(Text.Strip(modelNumber)).rows[0],
                                                     FormNotes(notes)))
              && (r.outcome.ok <==> insert(r.outcome.sent.value).Data?)
  {
    var pid, sid, model := Text.Strip(palletId), Text.Strip(shelfId), Text.Strip(modelNumber);
    if pid == [] || sid == [] || model == [] then FormMissingData
    else
      match productByModel(model)
      case Failure => FormQueryFailed
      case Data(rows) =>
        if rows == [] then FormNotFound
        else
          Text.StripIdempotent(palletId);
          Text.StripIdempotent(shelfId);
          // the product id comes from the store as an integer; no text is parsed
          FormSubmitted(Backend.AddPallet(pid, sid, IntCell(rows[0]), Some(FormNotes(notes)), (s: string) => None, insert))
  }

  /** A pallet record sent from the form has trimmed, non-blank ids and
      never blank notes, whatever was typed. */
  lemma PalletFormRecordIsClean(palletId: string, shelfId: string, modelNumber: string, notes: string,
                                productByModel: string -> Response<int>,
                                insert: PalletRecord -> Response<PalletRecord>)
    ensures var r := GuiAddPallet(palletId, shelfId, modelNumber, notes, productByModel, insert);
      r.FormSubmitted? ==>
        && r.outcome.sent.Some?
        && r.outcome.sent.value.palletId != [] && Text.IsTrimmed(r.outcome.sent.value.palletId)
        && r.outcome.sent.value.shelfId != [] && Text.IsTrimmed(r.outcome.sent.value.shelfId)
        && r.outcome.sent.value.notes != []
  {
  }
}

=== FILE: records.dfy ===
/** The three tables of the inventory (product, pallet, item), the rows the
    remote store returns, and the store's answer to a call. */
module Records {
  import opened Wrappers

  /** One column value as the store returns it; `NullCell` is Python's `None`. */
  datatype Cell = IntCell(i: int) | TextCell(s: string) | NullCell

  /** A store row: column name to value. A column the query did not select is absent. */
  type Row = map<string, Cell>

  /** Python truthiness of a cell: non-zero numbers and non-empty strings. */
  predicate Truthy(c: Cell) {
    match c
    case IntCell(i) => i != 0
    case TextCell(s) => s != []
    case NullCell => false
  }

  /** `row.get(key)`: the value, or `None` when the column is absent, so an
      absent column and a null one read the same. */
  function Get(row: Row, key: string): Cell {
    if key in row then row[key] else NullCell
  }

  const ItemIdColumn := "item_id"
  const SerialNumberColumn := "serial_number"
  const PalletIdColumn := "pallet_id"
  const ProductIdColumn := "product_id"
  const ModelNumberColumn := "model_number"

  /** A row of the item table: a serialised unit on a pallet, with the
      product copied from that pallet when the item was written. */
  datatype Item = Item(itemId: int, serialNumber: string, palletId: string, productId: int) {

    /** The dict written to the store for this item. */
    function ToRow(): Row {
      map[ItemIdColumn := IntCell(itemId), SerialNumberColumn := TextCell(serialNumber),
          PalletIdColumn := TextCell(palletId), ProductIdColumn := IntCell(productId)]
    }
  }

  /** The four-field tuple the item views display; a field is `None` when the
      row lacks that column or holds null there. */
  datatype ItemTuple = ItemTuple(itemId: Cell, serialNumber: Cell, palletId: Cell, productId: Cell)

  /** A row of the pallet table; `notes` is "N/A" when none was given. */
  datatype PalletRecord = PalletRecord(palletId: string, shelfId: string, productId: int, notes: string)

  /** A row of the product table. */
  datatype ProductRecord = ProductRecord(productId: int, productName: string,
                                         productDescription: string, modelNumber: string)

  const DefaultNotes := "N/A"

  /** What a store call gives back: the affected or selected rows (`None` data
      reads as no rows), or a failure, which covers both an error payload and
      a raised exception. */
  datatype Response<T> = Data(rows: seq<T>) | Failure

  /** `len(resp.data or [])` after the error check: the number of rows the
      store reports, and 0 on a failure. */
  function RowCount<T>(resp: Response<T>): nat {
    match resp
    case Data(rows) => |rows|
    case Failure => 0
  }

  /** How a bulk write treats rows that clash on (item_id, serial_number). */
  datatype WriteMode = Insert | UpsertIgnoreDuplicates

  /** Python's `int(v)` on a value: integers pass through, strings go to the
      string parser `parse` (which stands for Python's integer syntax), and
      `None` has no integer value. */
  function IntValue(v: Cell, parse: string -> Option<int>): Option<int> {
    match v
    case IntCell(i) => Some(i)
    case TextCell(s) => parse(s)
    case NullCell => None
  }
}

=== FILE: seqs.dfy ===
/** Generic sequence combinators used as reference definitions for the
    order-preserving filters of the inventory code. */
module Seqs {

  /** The elements of `s` that satisfy `p`, in their original order. */
  function Filter<T(==)>(p: T -> bool, s: seq<T>): (r: seq<T>)
    ensures |r| <= |s|
    ensures forall k :: 0 <= k < |r| ==> p(r[k])
  {
    if s == [] then []
    else if p(s[0]) then [s[0]] + Filter(p, s[1..])
    else Filter(p, s[1..])
  }

  /** `f` applied to every element of `s`. */
  function Map<A, B>(f: A -> B, s: seq<A>): (r: seq<B>)
    ensures |r| == |s|
    ensures forall k :: 0 <= k < |s| ==> r[k] == f(s[k])
  {
    seq(|s|, k requires 0 <= k < |s| => f(s[k]))
  }

  /** Filtering keeps everything exactly when every element passes. */
  lemma {:induction false} FilterAll<T>(p: T -> bool, s: seq<T>)
    requires forall k :: 0 <= k < |s| ==> p(s[k])
    ensures Filter(p, s) == s
  {
    if s != [] {
      FilterAll(p, s[1..]);
    }
  }

  /** Filtering keeps nothing when no element passes. */
  lemma FilterNone<T>(p: T -> bool, s: seq<T>)
    requires forall k :: 0 <= k < |s| ==> !p(s[k])
    ensures Filter(p, s) == []
  {
  }

  /** Filtering `s` when all of `s[..i]` passes and none of `s[i..j]` does. */
  lemma {:induction false} FilterKeepDrop<T>(p: T -> bool, s: seq<T>, i: nat, j: nat)
    requires i <= j <= |s|
    requires forall k :: 0 <= k < i ==> p(s[k])
    requires forall k :: i <= k < j ==> !p(s[k])
    ensures Filter(p, s) == s[..i] + Filter(p, s[j..])
    decreases j
  {
    if i > 0 {
      FilterKeepDrop(p, s[1..], i - 1, j - 1);
      assert s[1..][j - 1..] == s[j..];
      assert [s[0]] + s[1..][..i - 1] == s[..i];
    } else if j > 0 {
      FilterKeepDrop(p, s[1..], 0, j - 1);
      assert s[1..][j - 1..] == s[j..];
    } else {
      assert s[..0] + Filter(p, s) == Filter(p, s);
    }
  }

  /** No element occurs twice in `s`. */
  predicate Distinct<T(==)>(s: seq<T>) {
    forall i, j :: 0 <= i < j < |s| ==> s[i] != s[j]
  }

  /** A sequence without repeats has as many elements as its set. */
  lemma {:induction false} DistinctCard<T>(s: seq<T>)
    requires Distinct(s)
    ensures |set x | x in s| == |s|
  {
    if s != [] {
      var t := s[1..];
      assert Distinct(t) by {
        forall i, j | 0 <= i < j < |t| ensures t[i] != t[j] {
          assert t[i] == s[i + 1] && t[j] == s[j + 1];
        }
      }
      DistinctCard(t);
      assert s[0] !in t by {
        forall k | 0 <= k < |t| ensures t[k] != s[0] {
          assert t[k] == s[k + 1];
        }
      }
      assert (set x | x in s) == {s[0]} + (set x | x in t) by {
        assert s == [s[0]] + t;
      }
    }
  }
}

=== FILE: text.dfy ===
/** Python's `str.strip()` and `str.splitlines()`, the two text operations the
    inventory code applies to every identifier, serial number and text box. */
module Text {
  import Seqs

  /** The characters for which Python's `str.isspace()` holds; `strip()` with
      no argument removes exactly these from both ends. */
  predicate IsSpace(c: char) {
    var n := c as int;
    || n == 0x20 || 0x09 <= n <= 0x0D || 0x1C <= n <= 0x1F
    || n == 0x85 || n == 0xA0 || n == 0x1680 || 0x2000 <= n <= 0x200A
    || n == 0x2028 || n == 0x2029 || n == 0x202F || n == 0x205F || n == 0x3000
  }

  /** The line boundaries recognised by `str.splitlines()`; `"\r\n"` counts as one. */
  predicate IsLineBreak(c: char) {
    var n := c as int;
    0x0A <= n <= 0x0D || 0x1C <= n <= 0x1E || n == 0x85 || n == 0x2028 || n == 0x2029
  }

  /** Every line boundary is also whitespace. */
  lemma LineBreakIsSpace(c: char)
    ensures IsLineBreak(c) ==> IsSpace(c)
  {
  }

  predicate AllSpace(s: string) {
    forall k :: 0 <= k < |s| ==> IsSpace(s[k])
  }

  predicate NoLineBreak(s: string) {
    forall k :: 0 <= k < |s| ==> !IsLineBreak(s[k])
  }

  /** A string with no whitespace at either end. */
  predicate IsTrimmed(s: string) {
    s == [] || (!IsSpace(s[0]) && !IsSpace(s[|s| - 1]))
  }

  /** `s` without its leading whitespace. */
  function TrimStart(s: string): (r: string)
    ensures |r| <= |s|
    ensures r == [] || !IsSpace(r[0])
  {
    if s != [] && IsSpace(s[0]) then TrimStart(s[1..]) else s
  }

  /** `TrimStart` keeps a suffix of `s`. */
  lemma {:induction false} TrimStartIsSuffix(s: string)
    ensures TrimStart(s) == s[|s| - |TrimStart(s)|..]
  {
    if s != [] && IsSpace(s[0]) {
      TrimStartIsSuffix(s[1..]);
    }
  }

  /** What `TrimStart` removes is whitespace. */
  lemma {:induction false} TrimStartRemovesSpace(s: string)
    ensures AllSpace(s[..|s| - |TrimStart(s)|])
  {
    if s != [] && IsSpace(s[0]) {
      TrimStartRemovesSpace(s[1..]);
      assert s[..|s| - |TrimStart(s)|] == [s[0]] + s[1..][..|s[1..]| - |TrimStart(s[1..])|];
    }
  }

  /** `s` without its trailing whitespace. */
  function TrimEnd(s: string): (r: string)
    ensures |r| <= |s|
    ensures r == [] || !IsSpace(r[|r| - 1])
  {
    if s != [] && IsSpace(s[|s| - 1]) then TrimEnd(s[..|s| - 1]) else s
  }

  /** `TrimEnd` keeps a prefix of `s`. */
  lemma {:induction false} TrimEndIsPrefix(s: string)
    ensures TrimEnd(s) == s[..|TrimEnd(s)|]
  {
    if s != [] && IsSpace(s[|s| - 1]) {
      TrimEndIsPrefix(s[..|s| - 1]);
    }
  }

  /** What `TrimEnd` removes is whitespace. */
  lemma {:induction false} TrimEndRemovesSpace(s: string)
    ensures AllSpace(s[|TrimEnd(s)|..])
  {
    if s != [] && IsSpace(s[|s| - 1]) {
      TrimEndRemovesSpace(s[..|s| - 1]);
      assert s[|TrimEnd(s)|..] == s[..|s| - 1][|TrimEnd(s[..|s| - 1])|..] + [s[|s| - 1]];
    }
  }

  /** Python's `s.strip()`: `s` with whitespace removed from both ends. */
  function Strip(s: string): (r: string)
    ensures IsTrimmed(r)
    ensures |r| <= |s|
  {
    TrimEndIsPrefix(TrimStart(s));
    TrimEnd(TrimStart(s))
  }

  /** Stripping leaves nothing exactly when the text is all whitespace. */
  lemma StripEmptyIffAllSpace(s: string)
    ensures Strip(s) == [] <==> AllSpace(s)
  {
    var t := TrimStart(s);
    TrimStartIsSuffix(s);
    TrimStartRemovesSpace(s);
    TrimEndRemovesSpace(t);
    assert s == s[..|s| - |t|] + t;
  }

  /** What `Strip` removes is whitespace, and what it keeps is one slice of `s`. */
  lemma StripIsSlice(s: string) returns (i: nat)
    ensures i + |Strip(s)| <= |s|
    ensures Strip(s) == s[i..i + |Strip(s)|]
    ensures AllSpace(s[..i]) && AllSpace(s[i + |Strip(s)|..])
  {
    var t := TrimStart(s);
    var r := TrimEnd(t);
    TrimStartIsSuffix(s);
    TrimEndIsPrefix(t);
    TrimStartRemovesSpace(s);
    TrimEndRemovesSpace(t);
    assert Strip(s) == r;
    i := |s| - |t|;
    assert s[i..i + |r|] == t[..|r|];
    var tail := s[i + |r|..];
    forall k | 0 <= k < |tail|
      ensures IsSpace(tail[k])
    {
      assert tail[k] == t[|r|..][k];
    }
  }

  /** Stripping whitespace off whitespace-only text leaves nothing. */
  lemma {:induction false} TrimStartOfSpaces(a: string, rest: string)
    requires AllSpace(a)
    requires rest == [] || !IsSpace(rest[0])
    ensures TrimStart(a + rest) == rest
  {
    if a == [] {
      assert a + rest == rest;
    } else {
      assert (a + rest)[1..] == a[1..] + rest;
      TrimStartOfSpaces(a[1..], rest);
    }
  }

  lemma {:induction false} TrimEndOfSpaces(rest: string, b: string)
    requires AllSpace(b)
    requires rest == [] || !IsSpace(rest[|rest| - 1])
    ensures TrimEnd(rest + b) == rest
  {
    if b == [] {
      assert rest + b == rest;
    } else {
      assert (rest + b)[..|rest + b| - 1] == rest + b[..|b| - 1];
      TrimEndOfSpaces(rest, b[..|b| - 1]);
    }
  }

  /** `Strip` is characterised by its result: whatever trimmed text `m` is
      surrounded by whitespace `a` and `b`, stripping `a + m + b` yields `m`. */
  lemma StripCharacterized(a: string, m: string, b: string)
    requires AllSpace(a) && AllSpace(b) && IsTrimmed(m)
    ensures Strip(a + m + b) == m
  {
    if m == [] {
      assert a + m + b == a + b;
      assert AllSpace(a + b);
      StripEmptyIffAllSpace(a + b);
    } else {
      assert a + m + b == a + (m + b);
      TrimStartOfSpaces(a, m + b);
      TrimEndOfSpaces(m, b);
    }
  }

  /** Text with no whitespace at either end, the empty text included, is
      its own strip. */
  lemma StripOfTrimmed(m: string)
    requires IsTrimmed(m)
    ensures Strip(m) == m
  {
    assert [] + m + [] == m;
    StripCharacterized([], m, []);
  }

  /** Stripping twice is stripping once. */
  lemma StripIdempotent(s: string)
    ensures Strip(Strip(s)) == Strip(s)
  {
    StripOfTrimmed(Strip(s));
  }

  /** Length of the first line of `s`: the index of the first line boundary,
      or `|s|` when there is none. */
  function LineEnd(s: string): (e: nat)
    ensures e <= |s|
    ensures NoLineBreak(s[..e])
    ensures e < |s| ==> IsLineBreak(s[e])
  {
    if s == [] || IsLineBreak(s[0]) then 0 else 1 + LineEnd(s[1..])
  }

  /** Where the second line of `s` starts: just past the first boundary,
      which is two characters long when it is `"\r\n"`. */
  function NextLineStart(s: string): (n: nat)
    requires LineEnd(s) < |s|
    ensures LineEnd(s) < n <= |s|
    ensures forall k :: LineEnd(s) <= k < n ==> IsLineBreak(s[k])
  {
    var e := LineEnd(s);
    if e + 1 < |s| && s[e] == '\r' && s[e + 1] == '\n' then e + 2 else e + 1
  }

  /** Python's `s.splitlines()`: the lines of `s` without their terminators.
      A final terminator does not start an empty last line, and `""` has no lines. */
  function SplitLines(s: string): (lines: seq<string>)
    ensures lines == [] <==> s == []
    ensures forall k :: 0 <= k < |lines| ==> NoLineBreak(lines[k])
    ensures s != [] ==> lines[0] == s[..LineEnd(s)]
    decreases |s|
  {
    if s == [] then []
    else if LineEnd(s) == |s| then [s]
    else [s[..LineEnd(s)]] + SplitLines(s[NextLineStart(s)..])
  }

  function Concat(lines: seq<string>): string {
    if lines == [] then [] else lines[0] + Concat(lines[1..])
  }

  function NotLineBreak(c: char): bool {
    !IsLineBreak(c)
  }

  /** Dropping the boundaries from `s` keeps its first line whole and drops
      the boundary after it. */
  lemma FilterFirstLine(s: string)
    requires LineEnd(s) < |s|
    ensures Seqs.Filter(NotLineBreak, s) == s[..LineEnd(s)] + Seqs.Filter(NotLineBreak, s[NextLineStart(s)..])
  {
    var e := LineEnd(s);
    forall k | 0 <= k < e
      ensures NotLineBreak(s[k])
    {
      assert s[k] == s[..e][k];
    }
    Seqs.FilterKeepDrop(NotLineBreak, s, e, NextLineStart(s));
  }

  /** Splitting loses only the line boundaries: joining the lines back gives
      `s` with every boundary character removed. */
  lemma {:induction false} SplitLinesKeepsText(s: string)
    ensures Concat(SplitLines(s)) == Seqs.Filter(NotLineBreak, s)
    decreases |s|
  {
    if s == [] {
    } else if LineEnd(s) == |s| {
      Seqs.FilterAll(NotLineBreak, s);
      assert Concat(SplitLines(s)) == s + Concat([]);
    } else {
      var tail := s[NextLineStart(s)..];
      FilterFirstLine(s);
      SplitLinesKeepsText(tail);
      var lines := SplitLines(s);
      assert lines[1..] == SplitLines(tail);
    }
  }

  /** What `splitlines` accepts as the end of a line: one boundary
      character, or `"\r\n"`. */
  predicate IsTerminator(t: string) {
    (|t| == 1 && IsLineBreak(t[0])) || t == "\r\n"
  }

  /** The text made of each line followed by its terminator. */
  function JoinLines(lines: seq<string>, ends: seq<string>): string
    requires |ends| == |lines|
  {
    if lines == [] then [] else lines[0] + ends[0] + JoinLines(lines[1..], ends[1..])
  }

  /** Lines and terminators that write a text line by line: no line holds a
      boundary; every line ends in a terminator, except that a last line
      that is not empty may end the text bare; and a lone `"\r"` is never
      directly followed by a lone `"\n"`, since the two would form one
      `"\r\n"` boundary. */
  predicate LineLayout(lines: seq<string>, ends: seq<string>) {
    && |ends| == |lines|
    && (forall k :: 0 <= k < |lines| ==> NoLineBreak(lines[k]))
    && (forall k :: 0 <= k < |lines| ==>
          IsTerminator(ends[k]) || (k == |lines| - 1 && ends[k] == [] && lines[k] != []))
    && (forall k :: 0 <= k < |lines| - 1 ==>
          ends[k] == "\r" && lines[k + 1] == [] ==> ends[k + 1] != "\n")
  }

  /** A line without boundaries, followed by a boundary or by nothing, is
      the whole first line. */
  lemma {:induction false} LineEndOfLine(a: string, rest: string)
    requires NoLineBreak(a)
    requires rest == [] || IsLineBreak(rest[0])
    ensures LineEnd(a + rest) == |a|
    decreases |a|
  {
    if a != [] {
      assert (a + rest)[1..] == a[1..] + rest;
      LineEndOfLine(a[1..], rest);
    } else {
      assert a + rest == rest;
    }
  }

  /** A line, its terminator and the rest: the text splits into that line
      and the lines of the rest, unless a lone `"\r"` meets a `"\n"`. */
  lemma SplitFirstLine(a: string, t: string, tail: string)
    requires NoLineBreak(a) && IsTerminator(t)
    requires t == "\r" && tail != [] ==> tail[0] != '\n'
    ensures SplitLines(a + t + tail) == [a] + SplitLines(tail)
  {
    var s := a + t + tail;
    assert s == a + (t + tail);
    LineEndOfLine(a, t + tail);
    var e := |a|;
    assert s[e] == t[0];
    if t == "\r" && tail != [] {
      assert s[e + 1] == tail[0];
    }
    assert NextLineStart(s) == e + |t|;
    assert s[e + |t|..] == tail;
    assert s[..e] == a;
  }

  /** The rest of a layout is a layout. */
  lemma LayoutTail(lines: seq<string>, ends: seq<string>)
    requires LineLayout(lines, ends) && lines != []
    ensures LineLayout(lines[1..], ends[1..])
  {
    forall k | 0 <= k < |lines| - 2
      ensures ends[1..][k] == "\r" && lines[1..][k + 1] == [] ==> ends[1..][k + 1] != "\n"
    {
      assert ends[1..][k] == ends[k + 1] && lines[1..][k + 1] == lines[k + 2];
    }
  }

  /** In a layout, the text after a lone `"\r"` does not start with `"\n"`. */
  lemma AfterCarriageReturn(lines: seq<string>, ends: seq<string>)
    requires LineLayout(lines, ends) && |lines| > 1 && ends[0] == "\r"
    ensures JoinLines(lines[1..], ends[1..]) != []
    ensures JoinLines(lines[1..], ends[1..])[0] != '\n'
  {
    var tail := JoinLines(lines[1..], ends[1..]);
    assert tail == lines[1] + (ends[1] + JoinLines(lines[2..], ends[2..]));
    if lines[1] == [] {
      assert ends[1] != "\n" && IsTerminator(ends[1]);
      assert tail[0] == ends[1][0];
    } else {
      assert tail[0] == lines[1][0];
    }
  }

  /** Splitting recovers the lines a text was written with, one line per
      terminator, whichever terminators were used. */
  lemma {:induction false} SplitJoin(lines: seq<string>, ends: seq<string>)
    requires LineLayout(lines, ends)
    ensures SplitLines(JoinLines(lines, ends)) == lines
    decreases |lines|
  {
    if lines != [] {
      var tail := JoinLines(lines[1..], ends[1..]);
      if ends[0] == [] {
        assert |lines| == 1 && tail == [];
        LineEndOfLine(lines[0], []);
        assert JoinLines(lines, ends) == lines[0] + [];
      } else {
        if ends[0] == "\r" && |lines| > 1 {
          AfterCarriageReturn(lines, ends);
        }
        SplitFirstLine(lines[0], ends[0], tail);
        LayoutTail(lines, ends);
        SplitJoin(lines[1..], ends[1..]);
      }
    }
  }

  /** The terminator of each line of `s`, in order; a last line that runs
      to the end of the text has the empty terminator. */
  function EndsOf(s: string): (ends: seq<string>)
    ensures |ends| == |SplitLines(s)|
    decreases |s|
  {
    if s == [] then []
    else if LineEnd(s) == |s| then [[]]
    else [s[LineEnd(s)..NextLineStart(s)]] + EndsOf(s[NextLineStart(s)..])
  }

  /** A line break taken as a terminator by `splitlines` is one boundary
      character or `"\r\n"`; after a lone `"\r"` the text does not go on
      with `"\n"`. */
  lemma FirstTerminator(s: string)
    requires LineEnd(s) < |s|
    ensures IsTerminator(s[LineEnd(s)..NextLineStart(s)])
    ensures s[LineEnd(s)..NextLineStart(s)] == "\r" && NextLineStart(s) < |s| ==> s[NextLineStart(s)] != '\n'
  {
    var e, n := LineEnd(s), NextLineStart(s);
    if n == e + 2 {
      assert s[e..n] == [s[e], s[e + 1]] == "\r\n";
    } else {
      assert s[e..n] == [s[e]];
    }
  }

  /** A line and its terminator put in front of a layout make a layout. */
  lemma LayoutCons(a: string, t: string, lines: seq<string>, ends: seq<string>)
    requires NoLineBreak(a) && IsTerminator(t) && LineLayout(lines, ends)
    requires t == "\r" && lines != [] && lines[0] == [] ==> ends[0] != "\n"
    ensures LineLayout([a] + lines, [t] + ends)
  {
    var ls, es := [a] + lines, [t] + ends;
    forall k | 0 <= k < |ls| - 1
      ensures es[k] == "\r" && ls[k + 1] == [] ==> es[k + 1] != "\n"
    {
      if k > 0 {
        assert es[k] == ends[k - 1] && ls[k + 1] == lines[k] && es[k + 1] == ends[k];
      }
    }
    forall k | 0 <= k < |ls|
      ensures IsTerminator(es[k]) || (k == |ls| - 1 && es[k] == [] && ls[k] != [])
    {
      if k > 0 {
        assert es[k] == ends[k - 1] && ls[k] == lines[k - 1];
      }
    }
  }

  /** When the first line of `s` is empty, its terminator starts with the
      first character of `s`. */
  lemma EmptyFirstLine(s: string)
    requires SplitLines(s) != [] && SplitLines(s)[0] == []
    ensures EndsOf(s) != [] && EndsOf(s)[0] != [] && EndsOf(s)[0][0] == s[0]
  {
    assert s[..LineEnd(s)] == [];
  }

  /** Joining a line and its terminator in front of more lines. */
  lemma JoinCons(a: string, t: string, lines: seq<string>, ends: seq<string>)
    requires |ends| == |lines|
    ensures JoinLines([a] + lines, [t] + ends) == a + t + JoinLines(lines, ends)
  {
    assert ([a] + lines)[1..] == lines && ([t] + ends)[1..] == ends;
  }

  /** Every text is written by its own lines and terminators, so `SplitJoin`
      determines `SplitLines` on every input. */
  lemma {:induction false} EveryTextHasLayout(s: string)
    ensures LineLayout(SplitLines(s), EndsOf(s))
    ensures JoinLines(SplitLines(s), EndsOf(s)) == s
    decreases |s|
  {
    if s == [] {
    } else if LineEnd(s) == |s| {
      assert s[..LineEnd(s)] == s;
      JoinCons(s, [], [], []);
    } else {
      var e, n := LineEnd(s), NextLineStart(s);
      var a, t, tail := s[..e], s[e..n], s[n..];
      assert s == a + t + tail;
      EveryTextHasLayout(tail);
      FirstTerminator(s);
      var rl, re := SplitLines(tail), EndsOf(tail);
      if t == "\r" && rl != [] && rl[0] == [] {
        EmptyFirstLine(tail);
      }
      LayoutCons(a, t, rl, re);
      JoinCons(a, t, rl, re);
    }
  }

  /** Text that starts with a visible character has a first line that is not
      blank once stripped. */
  lemma FirstLineNotBlank(s: string)
    requires s != [] && !IsSpace(s[0])
    ensures SplitLines(s) != [] && Strip(SplitLines(s)[0]) != []
  {
    LineBreakIsSpace(s[0]);
    var first := SplitLines(s)[0];
    assert first[0] == s[0];
    StripEmptyIffAllSpace(first);
  }
}

=== FILE: wrappers.dfy ===
/** Optional values, standing in for Python's `None`. */
module Wrappers {

  datatype Option<+T> = None | Some(value: T) {

    /** The wrapped value, or `default` when there is none. */
    function GetOr(default: T): T {
      match this
      case Some(v) => v
      case None => default
    }
  }
}
